=== FILE: README.md ===
# Craigslist listing tracker: a Dafny model

The application keeps a personal list of rental listings. A small server, given a listing URL,
fetches the page. It has a language model extract the address, contact details, price,
bedrooms, bathrooms and pet policy as JSON. When the model call fails it falls back to a
regular expression. A browser front end stores listings in `localStorage`, edits them in a
form and inline in a table, and can fill the form from the server.

This project models three cores as pure functions over immutable datatypes and proves
properties about them.

- **The `/scrape` handler** (`ScrapeHandler`, with `Text`, `Json`, `JsonCandidate` and `BedBath`).
  - Inputs:
    - the submitted URL;
    - the fetched page, as the raw text of each selector;
    - the model's reply, either a failure or a text;
    - `JSON.parse`, as an abstract partial function `string -> Option<Json>`.
  - The handler goes through these steps:
    1. the domain check;
    2. the joined attribute text;
    3. the no-content check;
    4. choosing the JSON text;
    5. coercion into the seven-field record;
    6. the bed/bath fallback;
    7. the mapping to a 400 or 500 error, a success, or a success flagged `fallback`.
  - Each of the two regular expressions is defined twice:
    - a predicate saying what a match is;
    - a deterministic scan.
  - Lemmas show the scan returns exactly the match a JavaScript engine reports: the leftmost one, then the lazy or greedy preference.
- **The listing store** (`ListingModel`, `ListingService`).
  - The stored entry is `Option<seq<Listing>>`. `None` means nothing has been written yet.
  - Ids and timestamps are parameters.
- **The UI handlers** (`ListingForm`, `ListingsTable`, `ListingsManager`).
  - Each component's state is an explicit value, and each handler is a function from state and event to the new state.
  - The form's scrape is split at its `await`: the outcome of the call is an input.
  - The table's handlers also return the listing they pass to `onUpdateListing`.
  - The manager's handlers take the store and return the new store.

Some behaviour of the handler that the model makes explicit:

- When `JSON.parse` rejects the chosen text, the handler answers 500 "Failed to parse listing information". It does not fall back to the heuristics.
- The text handed to `JSON.parse` comes from the first of these that applies:
  1. the first fenced block, optionally tagged `json`, holding an object (its inner text);
  2. the greedy span from the first `{` to the last `}`;
  3. the whole reply.
- The bed/bath pattern is case-sensitive (`BR`, `Ba`).
- A reply that parses to `null` makes the read of `.address` throw. That happens inside the block whose failure leads to the fallback, so such a reply yields the fallback record.
- Coercion copies the parsed value through when it is truthy. A field can therefore hold a number, an array or an object; the record's values are JSON values.

## Model

| member | source | states |
|---|---|---|
| Text.Trim | server/index.js:52-55 | The trimmed string has no whitespace at either end. It is empty exactly when the input is all whitespace. |
| Text.TrimOfPadded | server/index.js:52-55 | A string made of whitespace, then a core that starts and ends with a non-space, then whitespace, trims to exactly that core. |
| Text.TrimIdempotent | server/index.js:131 | Trimming twice is the same as trimming once. |
| Text.Span | server/index.js:166 | A greedy `\s*` or `\d+` run stops at the first character outside the class. |
| Text.SpanIsUnique | server/index.js:166 | Any run of the class that is followed by a character outside it is the run the scan finds. |
| Text.IndexOfFrom | server/index.js:41 | The result is the first position where the needle occurs. When the result is None, the needle occurs nowhere from that position on. |
| Text.Includes | server/index.js:41 | `includes` holds exactly when the needle occurs at some position. |
| Text.LastIndexOf | server/index.js:128 | The result is the last position holding the character. When the result is None, the character does not occur. |
| Json.Prop | server/index.js:139-145 | A property read on a non-null value finds exactly an own member of an object. |
| Json.OrElse | server/index.js:139-145 | `x || d` is the value read when it is truthy, and the default otherwise. |
| ScrapeHandler.Attributes | server/index.js:57-61 | The joined text is empty exactly when there are no attribute groups, even if every group is blank. A non-empty join ends with a newline. |
| ScrapeHandler.AttributesAppend | server/index.js:59-61 | Joining distributes over concatenation: each group contributes its own piece, in document order. |
| ScrapeHandler.AttributesOfOne | server/index.js:60 | One group contributes its trimmed text followed by a newline. |
| ScrapeHandler.AttributesSnoc | server/index.js:59-61 | Appending a group appends its trimmed text and a newline. |
| ScrapeHandler.JoinOneTrimmedGroup | server/index.js:60 | A single group with no surrounding whitespace joins to itself plus a newline. |
| ScrapeHandler.Locate | server/index.js:52-61 | Title, map address and posting info are the selector texts, trimmed. The joined attributes are empty iff there are no groups. The trimmed body is empty iff the raw body is all whitespace. |
| ScrapeHandler.Coerce | server/index.js:138-146 | Each text field is the member read when it is truthy, and `''` otherwise. `allowsPets` is the member when truthy, and `false` otherwise. A parsed value that is not an object yields all defaults. |
| ScrapeHandler.CoerceIgnoresOtherKeys | server/index.js:138-146 | Two objects that agree on the seven keys coerce to the same record, so extra members are dropped. |
| ScrapeHandler.Members | server/index.js:138-146 | The record, as an object, has exactly the seven keys. |
| ScrapeHandler.CoerceRecoversRecord | server/index.js:138-146 | Round trip: an object that carries a coerced record, plus any extra members, coerces back to exactly that record. |
| ScrapeHandler.CoerceIdempotent | server/index.js:138-146 | Coercing the coerced record again changes nothing. |
| ScrapeHandler.Extract | server/index.js:79-149 | The outcome is "unparsable" exactly when `JSON.parse` rejects the chosen text. It is an exception exactly when the call fails or the text parses to `null`. Otherwise the text parses to a value other than `null`, and the outcome is that value coerced. |
| ScrapeHandler.Fallback | server/index.js:155-170 | The map address and the trimmed price text are kept. Creator and contact are `''` and pets is false. Bedrooms and bathrooms are `''` exactly when the attributes contain no bed/bath match. |
| ScrapeHandler.FallbackTakesFirstMatch | server/index.js:166-170 | When there is a match, bedrooms and bathrooms are the two capture groups of the leftmost match. |
| ScrapeHandler.FallbackOfTwoBedOneBath | server/index.js:165-170 | For the attributes "2 BR / 1 Ba", the fallback's bedrooms are "2" and its bathrooms "1". |
| ScrapeHandler.Respond | server/index.js:73-174 | Once the page is fetched, every error is a 400 or a 500. A success needs content. The `fallback` flag is set exactly when there is content and the model block throws, and then the data is the fallback record. Any other success carries the record the model block extracted. |
| ScrapeHandler.Scrape | server/index.js:37-180 | Every error is a 400 or a 500. A failed fetch of an accepted URL is the 500 "An error occurred while scraping the listing.". A success implies an accepted URL, a fetched page and some content. A fallback success carries the page's fallback record after the model block threw. Any other success carries the parsed reply, coerced. |
| ScrapeHandler.UrlCheckedBeforeFetch | server/index.js:41-43 | A missing or empty URL, or one without `craigslist.org`, gets the 400 invalid-URL error whatever the fetch and the model would do. |
| ScrapeHandler.NoContentIff | server/index.js:73-75 | The 400 no-content error comes exactly when the body is blank and there are no attribute groups. In that case the model's reply and the parser are irrelevant. |
| ScrapeHandler.ParseFailureIsServerError | server/index.js:125-135 | A reply that `JSON.parse` rejects gives the 500 parse error, not the fallback. |
| ScrapeHandler.ParsedReplyIsCoerced | server/index.js:125-149 | A reply whose chosen text parses to a value other than `null` gives a success, not flagged `fallback`, whose data is that value coerced. |
| ScrapeHandler.NullReplyFallsBack | server/index.js:138-170 | A reply whose chosen text parses to `null` gives a success flagged `fallback` that carries the page's fallback record: its address is the trimmed map address and its price the trimmed price text. |
| ScrapeHandler.ModelFailureFallsBack | server/index.js:151-173 | A failed model call gives a success flagged `fallback` that carries the fallback record: its address is the trimmed map address and its price the trimmed price text. |
| ScrapeHandler.FetchFailureIsServerError | server/index.js:176-178 | When the GET at line 48 fails for an accepted URL, the outer handler answers 500 "An error occurred while scraping the listing.", whatever the model would do. |
| ScrapeHandler.PaddedAddressIsTrimmed | server/index.js:155-160 | A map address read as " 12 Main St" and a newline is trimmed (line 54) and reaches the fallback record as "12 Main St". |
| ScrapeHandler.TwoBedOneBathScenario | server/index.js:151-173 | For a page whose attributes read "2 BR / 1 Ba", a failed model call yields a fallback success with bedrooms "2", bathrooms "1" and pets false. |
| JsonCandidate.GroupFrom | server/index.js:127 | When the result is Some, it is a match of the fenced pattern's group and closing fence. Its `}` can close the block, and no `}` inside its object can, so the lazy part is the shortest. |
| JsonCandidate.GroupFromComplete | server/index.js:127 | Every group match at that position is found, and none with a shorter lazy part is missed. |
| JsonCandidate.LazyClose | server/index.js:127 | The result is the first `}` that can close the block: spaces, then a fence, follow it. Before it, no position can close the block. None means no position can. |
| JsonCandidate.FenceMatchAt | server/index.js:127 | The attempt at a position yields a fenced match that starts there. |
| JsonCandidate.UntaggedFailsAfterTag | server/index.js:127 | When `json` follows the fence, the untagged alternative cannot match. |
| JsonCandidate.TaggedGroupStart | server/index.js:127 | When `json` follows the opening fence, every match takes the tag, and its group starts after it. |
| JsonCandidate.FenceMatchAtComplete | server/index.js:127 | Every fenced match at a start is found by the attempt there, and the attempt's lazy part is no longer. |
| JsonCandidate.FenceHitDetermined | server/index.js:127 | At one start, a fenced match is fixed by where its lazy part ends. |
| JsonCandidate.SameStartSameOpen | server/index.js:127 | Two fenced matches at one start open their object at the same `{`. |
| JsonCandidate.FirstFenceFromSpec | server/index.js:127 | The scan from a position returns the leftmost match, or shows there is none. |
| JsonCandidate.FirstFence | server/index.js:127 | The result is Some exactly when the fenced pattern matches anywhere. It is the match the engine reports: leftmost, then shortest lazy part. |
| JsonCandidate.BraceSpan | server/index.js:128 | The result is Some exactly when the greedy brace pattern matches. It is the reported match: from the first `{` to the last `}`. |
| JsonCandidate.Choose | server/index.js:127-130 | The fenced block wins whenever it matches. The brace span is used exactly when there is no fenced match but a brace match. The whole reply is used exactly when neither pattern matches. |
| JsonCandidate.Chosen | server/index.js:130 | The text is the capture group of a fenced match, the whole brace match, or the whole reply. |
| JsonCandidate.JsonText | server/index.js:131 | The text handed to `JSON.parse` is the chosen alternative's text, trimmed. It has no whitespace at either end, and trimming it again changes nothing. |
| JsonCandidate.ChosenFence | server/index.js:127-130 | When no backquote precedes a fenced match and no `}` inside its object can close the block, the text chosen is that match's group. Nested objects are allowed. |
| JsonCandidate.ReportedIsUnambiguous | server/index.js:127 | When nothing before a fenced match looks like a fence and no earlier `}` of its object can close the block, that match is the reported one. |
| JsonCandidate.MatchEndCloses | server/index.js:127 | The `}` that ends a fenced match is followed by spaces and the closing fence, so it can close the block. |
| JsonCandidate.FencedObjectHit | server/index.js:127 | A fenced, tagged object with no backquote, embedded in prose with no backquote, is a fenced match. Nothing fence-like precedes it and no inner `}` can close it. |
| JsonCandidate.InnerBraceDoesNotClose | server/index.js:127 | A `}` inside an object holding no backquote cannot end the lazy part: no closing fence can follow it. |
| JsonCandidate.FencedObjectIsParsed | server/index.js:126-131 | For a fenced, tagged object embedded in prose, the text parsed is exactly that object, nested objects included. Neither the object nor the prose may hold a backquote. |
| BedBath.BathAfter | server/index.js:166 | When the result is Some, the text after the `/` matches `\s*(\d+(?:\.\d+)?)\s*Ba`. |
| BedBath.MatchAt | server/index.js:166 | The attempt at a position yields a match of the whole pattern starting there. |
| BedBath.MatchAfterBr | server/index.js:166 | Once `(\d+)\s*BR` has matched, any result is a match of the whole pattern starting at the same position. |
| BedBath.FractionEnd | server/index.js:166 | Any fraction taken is a `.` followed by digits. When a `.` and a digit follow the integer part, the fraction is taken, and it runs to the last digit. |
| BedBath.FractionEndComplete | server/index.js:166 | A decimal figure followed by neither `.` nor a digit is the one the greedy runs find. |
| BedBath.BedPartRuns | server/index.js:166 | In any match, the digit and space runs before the `/` are exactly the greedy runs. |
| BedBath.BathAfterComplete | server/index.js:166 | Any bathroom part after the `/` is the one the attempt finds. |
| BedBath.MatchAtComplete | server/index.js:166 | Any match starting at a position is the one the attempt there returns, so a match at a start is unique. |
| BedBath.FirstMatchFromSpec | server/index.js:166 | The scan from a position returns the leftmost match, or shows there is none. |
| BedBath.FirstMatch | server/index.js:166-167 | The result is Some exactly when the pattern matches anywhere, and it is the leftmost match. |
| BedBath.Bedrooms | server/index.js:168 | The first capture group is a non-empty run of digits. |
| BedBath.Bathrooms | server/index.js:169 | The second capture group is non-empty and starts and ends with a digit. |
| BedBath.FirstMatchIsUnique | server/index.js:166-170 | The reported match is unique, and it is the one the scan finds. |
| BedBath.ExampleTwoBedsOneAndAHalfBaths | server/index.js:166-170 | "2 BR / 1.5 Ba" yields bedrooms "2" and bathrooms "1.5". |
| BedBath.ExampleTwoBedsOneBath | server/index.js:166-170 | "2 BR / 1 Ba" yields bedrooms "2" and bathrooms "1". |
| BedBath.NoCapitalBNoMatch | server/index.js:166 | The pattern is case-sensitive: a text with no capital `B` has no match. |
| ListingModel.Adopt | src/services/ListingService.ts:13-18 | The new listing carries every draft field, plus the given id and the two timestamps. |
| ListingModel.Overlay | src/components/ListingsManager.tsx:29-32 | The draft's fields override. Id, dateAdded and dateUpdated come from the listing. |
| ListingModel.CarriesDetermines | src/components/ListingsManager.tsx:29-32 | A listing is fixed by its draft fields, its id and its two dates. |
| ListingModel.WithText | src/components/ListingsTable.tsx:61-64 | Setting a text field makes it read as the new value. Every other field reads as before, the flags are kept, and an optional price or notes that is not the edited field keeps its exact value, undefined included. |
| ListingService.GetListings | src/services/ListingService.ts:6-9 | An empty store reads as the empty sequence. Otherwise the read is the stored sequence. |
| ListingService.AddListing | src/services/ListingService.ts:11-22 | The new store is the old sequence followed by the new listing. The length grows by one and earlier entries are unchanged. The returned listing carries the draft, the id and the dates, and is the last stored element. |
| ListingService.ReplaceById | src/services/ListingService.ts:31-33 | Length is kept. Each element with the id becomes the replacement, and every other element is unchanged. |
| ListingService.UpdateListing | src/services/ListingService.ts:24-37 | The argument, with only `dateUpdated` replaced, takes the place of every stored listing with its id. Order and length are kept. An id that is not stored leaves the sequence unchanged. |
| ListingService.RemoveId | src/services/ListingService.ts:41 | A listing survives exactly when it was present and its id differs. |
| ListingService.RemoveIdAppend | src/services/ListingService.ts:41 | Filtering distributes over concatenation, so the kept listings stay in order. |
| ListingService.RemoveIdOne | src/services/ListingService.ts:41 | A single listing is kept exactly when its id differs. |
| ListingService.RemoveAbsentId | src/services/ListingService.ts:41 | Filtering out an absent id changes nothing. |
| ListingService.DeleteListing | src/services/ListingService.ts:39-43 | Exactly the listings without the id remain, and none with the id is left. |
| ListingService.DeleteIdempotent | src/services/ListingService.ts:39-43 | Deleting twice is the same as deleting once. |
| ListingService.DeleteAbsentIdKeepsListings | src/services/ListingService.ts:39-43 | Deleting an id that is not stored leaves the stored sequence as it was. |
| ListingService.AddKeepsIdsUnique | src/services/ListingService.ts:11-22 | Adding under an id not yet stored keeps the ids unique. |
| ListingService.UpdateKeepsIds | src/services/ListingService.ts:24-37 | An update keeps each position's id, so it keeps the ids unique. |
| ListingService.RemoveIdKeepsIdsUnique | src/services/ListingService.ts:41 | Filtering keeps the ids unique. |
| ListingService.DeleteKeepsIdsUnique | src/services/ListingService.ts:39-43 | Deleting keeps the ids unique. |
| ListingForm.SetInput | src/components/ListingForm.tsx:51-54 | The named input takes the value (the checked state for a checkbox), and every other input is unchanged. |
| ListingForm.HandleChange | src/components/ListingForm.tsx:42-55 | Only the named field changes. The scrape success and error are cleared exactly when that field is the url. |
| ListingForm.DraftByInputs | src/components/ListingForm.tsx:12-21 | The form data is fixed by what its eight inputs show. |
| ListingForm.ChangeToSameValue | src/components/ListingForm.tsx:51-54 | Typing back the shown value leaves the data unchanged. |
| ListingForm.LaterChangeWins | src/components/ListingForm.tsx:51-54 | Of two changes to the same input, the later one wins. |
| ListingForm.LoadInitial | src/components/ListingForm.tsx:27-40 | A missing price or notes loads as `''`, and a missing pets value as false. The other fields are copied. No initial data leaves the state as it was. |
| ListingForm.LoadThenOverlay | src/components/ListingForm.tsx:27-40 | A loaded listing, overlaid with its own form data, comes back as it was, with its optional fields filled in. |
| ListingForm.Merge | src/components/ListingForm.tsx:71-78 | Address, creator, contact and price take the scraped value when it is non-empty, and keep the previous one otherwise. Pets is scraped OR previous. Url, applied and notes are unchanged. |
| ListingForm.MergeKeeps | src/components/ListingForm.tsx:71-78 | A scrape never unticks pets and never touches url, applied or notes. |
| ListingForm.MergeIdempotent | src/components/ListingForm.tsx:71-78 | Merging the same scrape twice is the same as merging it once. |
| ListingForm.MergeEmpty | src/components/ListingForm.tsx:71-78 | An empty scrape leaves the form data unchanged. |
| ListingForm.MergeFullScrape | src/components/ListingForm.tsx:73-76 | A scrape with all four texts filled decides those fields, whatever the form held. |
| ListingForm.StartScrape | src/components/ListingForm.tsx:63-65 | Scraping is on, the status is cleared, and the data is untouched. |
| ListingForm.FailureText | src/components/ListingForm.tsx:81 | The error shown is the reply's error when it is non-empty, and the default message otherwise. |
| ListingForm.FinishScrape | src/components/ListingForm.tsx:67-88 | A successful reply with data merges it and sets success. Any other reply, or an exception, keeps the data and sets the matching error. Scraping is off in every case. |
| ListingForm.HandleScrape | src/components/ListingForm.tsx:57-89 | An empty url only sets "Please enter a URL to scrape". Otherwise scraping ends off. Success clears the error. A failure keeps the data and shows an error. |
| ListingForm.EmptyUrlSkipsCall | src/components/ListingForm.tsx:58-61 | With an empty url the outcome does not depend on the call, and the data is unchanged. |
| ListingForm.ScrapeKeepsOwnFields | src/components/ListingForm.tsx:57-89 | Whatever the outcome, url, applied and notes are kept, and pets is never unticked. |
| ListingsTable.EditableIsText | src/components/ListingsTable.tsx:41-50 | The fields open to inline editing are address, creator, contact, notes and price, all of them text fields. |
| ListingsTable.CellClick | src/components/ListingsTable.tsx:39-56 | A protected field leaves the state unchanged. Any other field starts editing that cell, with the field's text or `''`. |
| ListingsTable.ChangeEditValue | src/components/ListingsTable.tsx:86 | Typing sets the edit value and keeps the cell. |
| ListingsTable.SaveEdit | src/components/ListingsTable.tsx:58-68 | With no field edited, nothing happens and nothing is emitted. Otherwise the emitted listing differs from the row's listing only in the edited field, which now holds the edit value: flags, and an unedited price or notes, keep their exact values. Editing stops. |
| ListingsTable.KeyDown | src/components/ListingsTable.tsx:70-76 | Enter saves. Escape stops editing and emits nothing. Any other key does nothing. |
| ListingsTable.ClickThenSaveUnchanged | src/components/ListingsTable.tsx:39-68 | Clicking a cell and saving with nothing typed emits a listing whose every field reads as before. It is the listing itself, except that an undefined price or notes that was edited is stored as `''`. |
| ListingsTable.SaveThenSaveEmitsNothing | src/components/ListingsTable.tsx:58-68 | A second save emits nothing. |
| ListingsTable.TogglePets | src/components/ListingsTable.tsx:156-162 | Only `allowsPets` changes, and it is negated, with an undefined value counting as false. |
| ListingsTable.TogglePetsTwice | src/components/ListingsTable.tsx:156-162 | Toggling twice restores a set value. An undefined value comes back as false. |
| ListingsManager.Load | src/components/ListingsManager.tsx:16-19 | The shown listings are the stored ones. |
| ListingsManager.HandleAdd | src/components/ListingsManager.tsx:21-25 | The draft is added to the store, the listings are reloaded and the form is hidden. |
| ListingsManager.HandleUpdate | src/components/ListingsManager.tsx:27-38 | With no current listing nothing happens. Otherwise the overlay is written through the store's update, the listings are reloaded, the form is hidden and editing ends. |
| ListingsManager.UpdateWritesOverlay | src/components/ListingsManager.tsx:29-33 | The written record carries the form data, the current listing's id and dateAdded, and the new time. It replaces exactly the stored listings with that id. |
| ListingsManager.HandleFormSubmit | src/components/ListingsManager.tsx:66-72 | Submit goes to update when a listing is being edited and to add otherwise. Either way the form closes and editing ends. |
| ListingsManager.HandleEdit | src/components/ListingsManager.tsx:40-43 | The listing becomes the current one and the form shows. |
| ListingsManager.HandleDelete | src/components/ListingsManager.tsx:45-50 | A declined confirmation changes nothing. A confirmed one deletes from the store and reloads. |
| ListingsManager.ToggledApplied | src/components/ListingsManager.tsx:53-56 | Only `hasApplied` changes, and it is negated. |
| ListingsManager.HandleToggleApplied | src/components/ListingsManager.tsx:52-59 | The store updates the listing with `hasApplied` negated, and the listings are reloaded. |
| ListingsManager.ToggleAppliedTwice | src/components/ListingsManager.tsx:52-59 | Toggling twice restores the listing, apart from its dateUpdated. |
| ListingsManager.HandleCancel | src/components/ListingsManager.tsx:61-64 | The form is hidden and editing ends. The store is untouched. |
| ListingsManager.ShowForm | src/components/ListingsManager.tsx:95-100 | The form shows, and the store and the listings are untouched. |
| ListingsManager.HandleTableUpdate | src/components/ListingsManager.tsx:116-119 | The table's listing is written through the store's update, and the listings are reloaded. |
| ListingsManager.HandlersKeepSynced | src/components/ListingsManager.tsx:16-72 | Every handler keeps the shown listings equal to the stored ones. |
| ListingsManager.HandlersKeepIdsUnique | src/components/ListingsManager.tsx:21-59 | Every handler keeps stored ids unique, provided an add draws an id that is not yet stored. A delete of any id, stored or not, keeps them unique. |
| ListingsManager.EditSubmitUnchanged | src/components/ListingsManager.tsx:27-43 | For a listing whose price, notes and allowsPets are all set, editing it and submitting the untouched form rewrites only its dateUpdated. A listing missing one of them would be stored with `''` or false in its place. |
| ListingsManager.DeleteRemovesId | src/components/ListingsManager.tsx:45-50 | A declined delete keeps the store. A confirmed one removes that id and keeps every other listing. |

## Left out

- Express, CORS, dotenv, the API key and `app.listen`: process setup with no logic to model.
- The HTTP GET and the HTML selectors. The fetch is an input that is either a failure or the raw text of each selector. A failed fetch maps to the outer 500 error.
- The prompt text and the language-model call. The call is an input that is either a failure or a reply text. An empty `content` array, or a first block without text, counts as a failure.
- `JSON.parse` itself: it is a function parameter. A parsed number carries a real, and the rounding of doubles is left out.
- Logging, and a request body whose `url` is not a string. The model's URL is a string or missing.
- The client's `ScraperService` network wrapper. The form receives its reply, or an exception, as an input.
- `localStorage` JSON serialisation, `crypto.randomUUID` and `new Date().toISOString()`. The store is a state, and ids and timestamps are parameters.
- Rendering, `useState`/`useEffect` scheduling, `formatDate` and `window.confirm`. The confirmation is a boolean input. Each handler is applied to the state current when it runs.
- Strings are sequences of code points, where JavaScript strings are UTF-16 code units. No behaviour here depends on the difference, since every character class and literal involved lies in the Basic Multilingual Plane.
- ListingForm.Merge: scraped values are strings, with a missing value as `''` or false. The server can pass through a non-string truthy value, such as a number, which the form would store as it is. That case is not modelled.
- ListingsTable.SaveEdit: only reachable states are modelled, in which the edited field is never a protected one. This matches the clicks that set the editing cell.
- JsonCandidate.FencedObjectIsParsed: stated for an object and prose that hold no backquote. A backquote inside a JSON string could form an earlier closing fence; JsonCandidate.ChosenFence states the general condition, that no earlier `}` can close the block.

=== FILE: bed_bath.dfy ===
/**
 The fallback's bedroom/bathroom pattern (server/index.js:166-170):
   (\d+)\s*BR\s*\/\s*(\d+(?:\.\d+)?)\s*Ba
 case-sensitive, first match only. As for the JSON candidate, a predicate says what a match is
 and a deterministic scan finds the leftmost one; at a given start the match is unique.
 */
module BedBath {
  import opened Optional
  import opened Text

  /**
   One match: bedroom digits s[start..bedEnd], spaces, "BR" at br, spaces, '/' at slash, spaces,
   bathroom figure s[bathStart..bathEnd] whose integer part ends at intEnd, spaces, "Ba" at ba.
   */
  datatype Hit = Hit(start: nat, bedEnd: nat, br: nat, slash: nat, bathStart: nat, intEnd: nat, bathEnd: nat, ba: nat)

  /** `\d+(?:\.\d+)?` on s[lo..hi], the integer part ending at mid. */
  predicate IsDecimal(s: string, lo: nat, mid: nat, hi: nat)
    requires lo <= mid <= hi <= |s|
  {
    && lo < mid && AllIn(s, lo, mid, Digit)
    && (mid == hi || (s[mid] == '.' && mid + 1 < hi && AllIn(s, mid + 1, hi, Digit)))
  }

  /** `(\d+)\s*BR\s*\/` with the '/' at slash. */
  predicate IsBedPart(s: string, start: nat, bedEnd: nat, br: nat, slash: nat) {
    && start < bedEnd <= br && br + 2 <= slash < |s|
    && AllIn(s, start, bedEnd, Digit)
    && AllIn(s, bedEnd, br, Space) && OccursAt(s, "BR", br)
    && AllIn(s, br + 2, slash, Space) && s[slash] == '/'
  }

  /** `\s*(\d+(?:\.\d+)?)\s*Ba` after the '/' at slash. */
  predicate IsBathPart(s: string, slash: nat, bathStart: nat, intEnd: nat, bathEnd: nat, ba: nat) {
    && slash < bathStart <= intEnd <= bathEnd <= ba && ba + 2 <= |s|
    && AllIn(s, slash + 1, bathStart, Space)
    && IsDecimal(s, bathStart, intEnd, bathEnd)
    && AllIn(s, bathEnd, ba, Space) && OccursAt(s, "Ba", ba)
  }

  predicate IsMatch(s: string, h: Hit) {
    && IsBedPart(s, h.start, h.bedEnd, h.br, h.slash)
    && IsBathPart(s, h.slash, h.bathStart, h.intEnd, h.bathEnd, h.ba)
  }

  ghost predicate HasMatch(s: string) {
    exists h :: IsMatch(s, h)
  }

  /** End of the greedy `(?:\.\d+)?` after the integer part ending at intEnd: taken whenever a '.' and a digit follow. */
  function FractionEnd(s: string, intEnd: nat): (e: nat)
    requires intEnd <= |s|
    ensures intEnd <= e <= |s|
    ensures e == intEnd || (s[intEnd] == '.' && intEnd + 1 < e && AllIn(s, intEnd + 1, e, Digit))
    ensures intEnd + 1 < |s| && s[intEnd] == '.' && IsDigit(s[intEnd + 1]) ==> intEnd < e && (e == |s| || !IsDigit(s[e]))
  {
    if intEnd < |s| && s[intEnd] == '.' then
      var fracEnd := Span(s, intEnd + 1, Digit);
      if fracEnd > intEnd + 1 then fracEnd else intEnd
    else intEnd
  }

  /** A decimal figure followed by neither '.' nor a digit is the one the greedy runs find. */
  lemma FractionEndComplete(s: string, lo: nat, mid: nat, hi: nat)
    requires lo <= mid <= hi < |s| && IsDecimal(s, lo, mid, hi)
    requires !IsDigit(s[hi]) && s[hi] != '.'
    ensures Span(s, lo, Digit) == mid
    ensures FractionEnd(s, mid) == hi
  {
    if mid == hi {
      SpanIsUnique(s, lo, mid, Digit);
    } else {
      SpanIsUnique(s, lo, mid, Digit);
      SpanIsUnique(s, mid + 1, hi, Digit);
    }
  }

  /** After the '/' at slash: `\s*(\d+(?:\.\d+)?)\s*Ba`, as (bathStart, intEnd, bathEnd, ba). */
  function BathAfter(s: string, slash: nat): (r: Option<(nat, nat, nat, nat)>)
    requires slash < |s|
    ensures r.Some? ==> IsBathPart(s, slash, r.value.0, r.value.1, r.value.2, r.value.3)
  {
    var bathStart := Span(s, slash + 1, Space);
    var intEnd := Span(s, bathStart, Digit);
    if intEnd == bathStart then None
    else
      var bathEnd := FractionEnd(s, intEnd);
      var ba := Span(s, bathEnd, Space);
      if OccursAt(s, "Ba", ba) then Some((bathStart, intEnd, bathEnd, ba)) else None
  }

  /** The attempt after the '/', when its greedy runs end where given and "Ba" follows. */
  lemma BathAfterSteps(s: string, slash: nat, bathStart: nat, intEnd: nat, bathEnd: nat, ba: nat)
    requires slash < |s|
    requires Span(s, slash + 1, Space) == bathStart
    requires Span(s, bathStart, Digit) == intEnd && intEnd != bathStart
    requires FractionEnd(s, intEnd) == bathEnd
    requires Span(s, bathEnd, Space) == ba && OccursAt(s, "Ba", ba)
    ensures BathAfter(s, slash) == Some((bathStart, intEnd, bathEnd, ba))
  {
  }

  /** The attempt at start p, with every greedy run taken in full (the only way it can succeed). */
  function MatchAt(s: string, p: nat): (r: Option<Hit>)
    requires p <= |s|
    ensures r.Some? ==> IsMatch(s, r.value) && r.value.start == p
  {
    var bedEnd := Span(s, p, Digit);
    var br := Span(s, bedEnd, Space);
    if bedEnd == p || !OccursAt(s, "BR", br) then None
    else MatchAfterBr(s, p, bedEnd, br)
  }

  /** The rest of the attempt, once `(\d+)\s*BR` has matched s[p..br + 2]. */
  function MatchAfterBr(s: string, p: nat, bedEnd: nat, br: nat): (r: Option<Hit>)
    requires p < bedEnd <= br <= |s| && AllIn(s, p, bedEnd, Digit) && AllIn(s, bedEnd, br, Space) && OccursAt(s, "BR", br)
    ensures r.Some? ==> IsMatch(s, r.value) && r.value.start == p
  {
    var slash := Span(s, br + 2, Space);
    if slash == |s| || s[slash] != '/' then None
    else
      var bath := BathAfter(s, slash);
      if bath.None? then None
      else Some(Hit(p, bedEnd, br, slash, bath.value.0, bath.value.1, bath.value.2, bath.value.3))
  }

  /** Each position inside s[lo..hi] holds the same character as t at the matching offset. */
  lemma CharOf(s: string, t: string, i: nat, k: nat)
    requires OccursAt(s, t, i) && k < |t|
    ensures s[i + k] == t[k]
  {
    assert s[i + k] == s[i..i + |t|][k];
  }

  /** A space is never a digit, nor one of the literal characters of the pattern. */
  lemma SpaceIsNotLiteral(c: char)
    requires IsSpace(c)
    ensures !IsDigit(c) && c != 'B' && c != '/' && c != '.'
  {
  }

  /** The digits and spaces before the '/' of a match are the greedy runs the attempt takes. */
  lemma BedPartRuns(s: string, start: nat, bedEnd: nat, br: nat, slash: nat)
    requires IsBedPart(s, start, bedEnd, br, slash)
    ensures Span(s, start, Digit) == bedEnd
    ensures Span(s, bedEnd, Space) == br
    ensures Span(s, br + 2, Space) == slash
  {
    CharOf(s, "BR", br, 0);
    if bedEnd < br { SpaceIsNotLiteral(s[bedEnd]); }
    SpanIsUnique(s, start, bedEnd, Digit);
    SpanIsUnique(s, bedEnd, br, Space);
    SpanIsUnique(s, br + 2, slash, Space);
  }

  /** A bathroom part after the '/' is the one the attempt finds there. */
  lemma BathAfterComplete(s: string, slash: nat, bathStart: nat, intEnd: nat, bathEnd: nat, ba: nat)
    requires IsBathPart(s, slash, bathStart, intEnd, bathEnd, ba)
    ensures BathAfter(s, slash) == Some((bathStart, intEnd, bathEnd, ba))
  {
    CharOf(s, "Ba", ba, 0);
    SpanIsUnique(s, slash + 1, bathStart, Space);
    if bathEnd < ba { SpaceIsNotLiteral(s[bathEnd]); }
    FractionEndComplete(s, bathStart, intEnd, bathEnd);
    SpanIsUnique(s, bathEnd, ba, Space);
    BathAfterSteps(s, slash, bathStart, intEnd, bathEnd, ba);
  }

  /** The attempt at p, when its greedy runs end where given and the bathroom part is found. */
  lemma MatchAtSteps(s: string, p: nat, bedEnd: nat, br: nat, slash: nat, bath: (nat, nat, nat, nat))
    requires p <= |s|
    requires Span(s, p, Digit) == bedEnd && bedEnd != p
    requires Span(s, bedEnd, Space) == br && OccursAt(s, "BR", br)
    requires Span(s, br + 2, Space) == slash && slash < |s| && s[slash] == '/'
    requires BathAfter(s, slash) == Some(bath)
    ensures MatchAt(s, p) == Some(Hit(p, bedEnd, br, slash, bath.0, bath.1, bath.2, bath.3))
  {
    assert MatchAt(s, p) == MatchAfterBr(s, p, bedEnd, br);
  }

  /** A match starting at p is the one the attempt at p returns: the match at a start is unique. */
  lemma MatchAtComplete(s: string, h: Hit)
    requires IsMatch(s, h)
    ensures MatchAt(s, h.start) == Some(h)
  {
    BedPartRuns(s, h.start, h.bedEnd, h.br, h.slash);
    BathAfterComplete(s, h.slash, h.bathStart, h.intEnd, h.bathEnd, h.ba);
    MatchAtSteps(s, h.start, h.bedEnd, h.br, h.slash, (h.bathStart, h.intEnd, h.bathEnd, h.ba));
  }

  /** The leftmost match starting at p or later. */
  function FirstMatchFrom(s: string, p: nat): (r: Option<Hit>)
    requires p <= |s|
    ensures r.Some? ==> IsMatch(s, r.value) && p <= r.value.start
    decreases |s| - p
  {
    match MatchAt(s, p)
    case Some(h) => Some(h)
    case None => if p == |s| then None else FirstMatchFrom(s, p + 1)
  }

  lemma {:induction false} FirstMatchFromSpec(s: string, p: nat)
    requires p <= |s|
    ensures FirstMatchFrom(s, p).Some? ==>
      forall h :: IsMatch(s, h) && p <= h.start ==> FirstMatchFrom(s, p).value.start <= h.start
    ensures FirstMatchFrom(s, p).None? ==> forall h :: IsMatch(s, h) ==> h.start < p
    decreases |s| - p
  {
    forall h | IsMatch(s, h) && h.start == p ensures MatchAt(s, p).Some? {
      MatchAtComplete(s, h);
    }
    if MatchAt(s, p).None? && p < |s| {
      FirstMatchFromSpec(s, p + 1);
    }
  }

  /** `attributes.match(...)`: the leftmost match, if the pattern occurs at all. */
  function FirstMatch(s: string): (r: Option<Hit>)
    ensures r.Some? <==> HasMatch(s)
    ensures r.Some? ==> IsMatch(s, r.value) && forall h :: IsMatch(s, h) ==> r.value.start <= h.start
  {
    FirstMatchFromSpec(s, 0);
    FirstMatchFrom(s, 0)
  }

  /** The match `attributes.match(...)` reports. */
  ghost predicate IsFirstMatch(s: string, h: Hit) {
    IsMatch(s, h) && forall h' :: IsMatch(s, h') ==> h.start <= h'.start
  }

  /** The reported match is unique, and it is the one the scan finds. */
  lemma FirstMatchIsUnique(s: string, h: Hit)
    requires IsFirstMatch(s, h)
    ensures FirstMatch(s) == Some(h)
  {
    var r := FirstMatch(s).value;
    MatchAtComplete(s, h);
    MatchAtComplete(s, r);
  }

  /** The first capture group: the bedroom digits, a non-empty run of ASCII digits. */
  function Bedrooms(s: string, h: Hit): (r: string)
    requires IsMatch(s, h)
    ensures |r| > 0 && forall i :: 0 <= i < |r| ==> IsDigit(r[i])
  {
    s[h.start..h.bedEnd]
  }

  /** The second capture group: the bathroom figure, digits with an optional decimal part. */
  function Bathrooms(s: string, h: Hit): (r: string)
    requires IsMatch(s, h)
    ensures |r| > 0 && IsDigit(r[0]) && IsDigit(r[|r| - 1])
  {
    s[h.bathStart..h.bathEnd]
  }

  /** The match in "2 BR / 1.5 Ba": digits at 0, "BR" at 2, '/' at 5, "1.5" at 7..10, "Ba" at 11. */
  lemma TwoBedsOneAndAHalfBathsHit(s: string)
    requires s == "2 BR / 1.5 Ba\n"
    ensures IsMatch(s, Hit(0, 1, 2, 5, 7, 8, 10, 11))
  {
    assert IsBedPart(s, 0, 1, 2, 5) by {
      assert s[2..4] == "BR";
      assert AllIn(s, 0, 1, Digit) && AllIn(s, 1, 2, Space) && AllIn(s, 4, 5, Space);
    }
    assert IsBathPart(s, 5, 7, 8, 10, 11) by {
      assert s[11..13] == "Ba";
      assert AllIn(s, 6, 7, Space) && AllIn(s, 7, 8, Digit) && AllIn(s, 9, 10, Digit) && AllIn(s, 10, 11, Space);
      assert IsDecimal(s, 7, 8, 10);
    }
  }

  /** The documented example: "2 BR / 1.5 Ba" yields bedrooms "2" and bathrooms "1.5". */
  lemma ExampleTwoBedsOneAndAHalfBaths(s: string)
    requires s == "2 BR / 1.5 Ba\n"
    ensures FirstMatch(s).Some?
    ensures Bedrooms(s, FirstMatch(s).value) == "2" && Bathrooms(s, FirstMatch(s).value) == "1.5"
  {
    var h := Hit(0, 1, 2, 5, 7, 8, 10, 11);
    TwoBedsOneAndAHalfBathsHit(s);
    FirstMatchIsUnique(s, h);
    assert s[0..1] == "2" && s[7..10] == "1.5";
  }

  /** The match in "2 BR / 1 Ba": a whole-number bathroom figure at 7..8, "Ba" at 9. */
  lemma TwoBedsOneBathHit(s: string)
    requires s == "2 BR / 1 Ba\n"
    ensures IsMatch(s, Hit(0, 1, 2, 5, 7, 8, 8, 9))
  {
    assert IsBedPart(s, 0, 1, 2, 5) by {
      assert s[2..4] == "BR";
      assert AllIn(s, 0, 1, Digit) && AllIn(s, 1, 2, Space) && AllIn(s, 4, 5, Space);
    }
    assert IsBathPart(s, 5, 7, 8, 8, 9) by {
      assert s[9..11] == "Ba";
      assert AllIn(s, 6, 7, Space) && AllIn(s, 7, 8, Digit) && AllIn(s, 8, 9, Space);
      assert IsDecimal(s, 7, 8, 8);
    }
  }

  /** "2 BR / 1 Ba": a whole-number bathroom count. */
  lemma ExampleTwoBedsOneBath(s: string)
    requires s == "2 BR / 1 Ba\n"
    ensures FirstMatch(s).Some?
    ensures Bedrooms(s, FirstMatch(s).value) == "2" && Bathrooms(s, FirstMatch(s).value) == "1"
  {
    var h := Hit(0, 1, 2, 5, 7, 8, 8, 9);
    TwoBedsOneBathHit(s);
    FirstMatchIsUnique(s, h);
    assert s[0..1] == "2" && s[7..8] == "1";
  }

  /** The pattern is case-sensitive: with no capital `B` in the text there is no match at all. */
  lemma NoCapitalBNoMatch(s: string)
    requires forall i :: 0 <= i < |s| ==> s[i] != 'B'
    ensures FirstMatch(s) == None
  {
    forall h | IsMatch(s, h) ensures false {
      CharOf(s, "BR", h.br, 0);
    }
  }
}

=== FILE: json.dfy ===
/**
 The JSON values `JSON.parse` can produce, JavaScript truthiness, and property access on them.
 A number carries the value of the double the parser produced; the rounding itself is the parser's.
 */
module Json {
  import opened Optional

  datatype Json =
    | JNull
    | JBool(b: bool)
    | JNumber(n: real)
    | JString(s: string)
    | JArray(items: seq<Json>)
    | JObject(members: map<string, Json>)

  /** JavaScript truthiness of a property read; None is `undefined`. */
  predicate Truthy(v: Option<Json>) {
    match v
    case None => false
    case Some(JNull) => false
    case Some(JBool(b)) => b
    case Some(JNumber(n)) => n != 0.0
    case Some(JString(s)) => s != ""
    case Some(JArray(_)) => true
    case Some(JObject(_)) => true
  }

  /**
   `v.key` for a value that is not null (reading a property of null throws, which the caller models).
   Only own members of an object are visible: none of the keys read here (`address`, `price`, ...)
   is a property of the string, number, boolean, array or object prototypes.
   */
  function Prop(v: Json, key: string): (r: Option<Json>)
    requires v != JNull
    ensures r.Some? <==> v.JObject? && key in v.members
    ensures r.Some? ==> r.value == v.members[key]
  {
    match v
    case JObject(m) => if key in m then Some(m[key]) else None
    case _ => None
  }

  /** A member read with a default: the value read when it is truthy, else the default. */
  function OrElse(read: Option<Json>, fallback: Json): (r: Json)
    ensures Truthy(read) ==> Some(r) == read
    ensures !Truthy(read) ==> r == fallback
  {
    if Truthy(read) then read.value else fallback
  }
}

=== FILE: json_candidate.dfy ===
/**
 Choosing the text handed to JSON.parse from the language model's reply (server/index.js:127-131):
 the first match of the fenced pattern  ```(?:json)?(\s*\{[\s\S]*?\}\s*)```  (its capture group),
 otherwise the first match of the greedy pattern  \{[\s\S]*\}  (the whole match),
 otherwise the whole reply; the choice is trimmed before parsing.

 Each pattern is modelled twice: a predicate saying what a match is, whatever order the regex
 engine tries things in, and a deterministic scan; lemmas show the scan returns the match the
 engine reports (leftmost start, then the engine's preference among matches at that start).
 */
module JsonCandidate {
  import opened Optional
  import opened Text

  const Fence: string := "```"
  const Tag: string := "json"

  /**
   One match of the fenced pattern: the opening fence at p, the capture group s[q..f] (spaces,
   `{` at o, anything, `}` at e, spaces), the closing fence at f.
   */
  datatype FenceHit = FenceHit(p: nat, q: nat, o: nat, e: nat, f: nat)

  /** The opening: a fence at p, then the optional `json` tag; the capture group starts at q. */
  predicate OpensAt(s: string, p: nat, q: nat) {
    && p + 3 <= q <= |s|
    && OccursAt(s, Fence, p)
    && (q == p + 3 || (q == p + 7 && OccursAt(s, Tag, p + 3)))
  }

  /** The capture group s[q..f] and the closing fence after it. */
  predicate IsGroupMatch(s: string, h: FenceHit) {
    && h.q <= h.o < h.e < h.f && h.f + 3 <= |s|
    && AllIn(s, h.q, h.o, Space) && s[h.o] == '{'
    && s[h.e] == '}' && AllIn(s, h.e + 1, h.f, Space) && OccursAt(s, Fence, h.f)
  }

  predicate IsFenceMatch(s: string, h: FenceHit) {
    OpensAt(s, h.p, h.q) && IsGroupMatch(s, h)
  }

  ghost predicate HasFenceMatch(s: string) {
    exists h :: IsFenceMatch(s, h)
  }

  /**
   The match a JavaScript `match` reports: the leftmost start, and at that start the one whose
   lazy `[\s\S]*?` is shortest (the greedy `\s*` runs and the `json` tag admit no other choice).
   */
  ghost predicate IsReportedFence(s: string, h: FenceHit) {
    && IsFenceMatch(s, h)
    && forall h' :: IsFenceMatch(s, h') ==> h.p < h'.p || (h.p == h'.p && h.e <= h'.e)
  }

  /** A `}` at e can end the lazy part: after it and any spaces comes the closing fence. */
  predicate ClosesAt(s: string, e: nat) {
    e < |s| && s[e] == '}' && OccursAt(s, Fence, Span(s, e + 1, Space))
  }

  /** The lazy `[\s\S]*?\}\s*```: the first `}` at or after e that can close the block. */
  function LazyClose(s: string, e: nat): (r: Option<nat>)
    requires e <= |s|
    ensures r.Some? ==> e <= r.value < |s| && ClosesAt(s, r.value)
    ensures r.Some? ==> forall k :: e <= k < r.value ==> !ClosesAt(s, k)
    ensures r.None? ==> forall k :: e <= k < |s| ==> !ClosesAt(s, k)
    decreases |s| - e
  {
    if e == |s| then None
    else if ClosesAt(s, e) then Some(e)
    else LazyClose(s, e + 1)
  }

  /** The capture group `(\s*\{[\s\S]*?\}\s*)` followed by the closing fence, tried from q. */
  function GroupFrom(s: string, p: nat, q: nat): (r: Option<FenceHit>)
    requires q <= |s|
    ensures r.Some? ==> r.value.p == p && r.value.q == q && IsGroupMatch(s, r.value)
    ensures r.Some? ==> ClosesAt(s, r.value.e) && forall k :: r.value.o < k < r.value.e ==> !ClosesAt(s, k)
  {
    var o := Span(s, q, Space);
    if o < |s| && s[o] == '{' then
      match LazyClose(s, o + 1)
      case None => None
      case Some(e) => Some(FenceHit(p, q, o, e, Span(s, e + 1, Space)))
    else None
  }

  /** Every group match from q is found by the attempt from q, which picks the shortest lazy part. */
  lemma GroupFromComplete(s: string, h: FenceHit)
    requires IsGroupMatch(s, h)
    ensures GroupFrom(s, h.p, h.q).Some?
    ensures GroupFrom(s, h.p, h.q).value.e <= h.e
  {
    assert s[h.f] == s[h.f..h.f + 3][0] == '`';
    SpanIsUnique(s, h.e + 1, h.f, Space);
    assert ClosesAt(s, h.e);
    SpanIsUnique(s, h.q, h.o, Space);
  }

  /** The attempt at start p: the fence, then `(?:json)?` tried with the tag first and without it second. */
  function FenceMatchAt(s: string, p: nat): (r: Option<FenceHit>)
    requires p <= |s|
    ensures r.Some? ==> IsFenceMatch(s, r.value) && r.value.p == p
  {
    if !OccursAt(s, Fence, p) then None
    else
      var tagged := if OccursAt(s, Tag, p + 3) then GroupFrom(s, p, p + 7) else None;
      if tagged.Some? then tagged else GroupFrom(s, p, p + 3)
  }

  /** When `json` follows the fence, the untagged alternative cannot match: `j` is neither a space nor `{`. */
  lemma UntaggedFailsAfterTag(s: string, p: nat)
    requires OccursAt(s, Fence, p) && OccursAt(s, Tag, p + 3)
    ensures GroupFrom(s, p, p + 3) == None
  {
    assert s[p + 3] == s[p + 3..p + 7][0] == 'j';
    SpanIsUnique(s, p + 3, p + 3, Space);
  }

  /** The attempt at p after a fence: the tagged alternative when it matches, else the untagged one. */
  lemma FenceMatchAtCases(s: string, p: nat)
    requires OccursAt(s, Fence, p)
    ensures OccursAt(s, Tag, p + 3) && GroupFrom(s, p, p + 7).Some? ==> FenceMatchAt(s, p) == GroupFrom(s, p, p + 7)
    ensures !OccursAt(s, Tag, p + 3) ==> FenceMatchAt(s, p) == GroupFrom(s, p, p + 3)
  {
  }

  /** A fenced match at p whose fence is followed by `json` has its group after the tag. */
  lemma TaggedGroupStart(s: string, h: FenceHit)
    requires IsFenceMatch(s, h) && OccursAt(s, Tag, h.p + 3)
    ensures h.q == h.p + 7
  {
    assert s[h.p + 3] == s[h.p + 3..h.p + 7][0] == 'j';
  }

  /** Every match at start p is found by the attempt at p, which picks the shortest lazy part. */
  lemma FenceMatchAtComplete(s: string, h: FenceHit)
    requires IsFenceMatch(s, h)
    ensures FenceMatchAt(s, h.p).Some?
    ensures FenceMatchAt(s, h.p).value.e <= h.e
  {
    FenceMatchAtCases(s, h.p);
    if OccursAt(s, Tag, h.p + 3) {
      TaggedGroupStart(s, h);
    }
    GroupFromComplete(s, h);
  }

  /**
   At one start, a match is fixed by where its lazy part ends: the `json` tag, the greedy `\s*`
   runs and the closing fence leave no other choice.
   */
  lemma FenceHitDetermined(s: string, a: FenceHit, b: FenceHit)
    requires IsFenceMatch(s, a) && IsFenceMatch(s, b)
    requires a.p == b.p && a.e == b.e
    ensures a == b
  {
    if OccursAt(s, Tag, a.p + 3) {
      assert s[a.p + 3] == s[a.p + 3..a.p + 7][0] == 'j';
    }
    assert a.q == b.q;
    SpanIsUnique(s, a.q, a.o, Space);
    SpanIsUnique(s, b.q, b.o, Space);
    assert s[a.f] == s[a.f..a.f + 3][0] == '`';
    assert s[b.f] == s[b.f..b.f + 3][0] == '`';
    SpanIsUnique(s, a.e + 1, a.f, Space);
    SpanIsUnique(s, b.e + 1, b.f, Space);
  }

  /** The leftmost start p' >= p with a match, and the attempt's result there. */
  function FirstFenceFrom(s: string, p: nat): (r: Option<FenceHit>)
    requires p <= |s|
    ensures r.Some? ==> IsFenceMatch(s, r.value) && p <= r.value.p
    decreases |s| - p
  {
    match FenceMatchAt(s, p)
    case Some(h) => Some(h)
    case None => if p == |s| then None else FirstFenceFrom(s, p + 1)
  }

  /** The scan from p reports the engine's match among those starting at p or later, or none exists. */
  lemma {:induction false} FirstFenceFromSpec(s: string, p: nat)
    requires p <= |s|
    ensures FirstFenceFrom(s, p).Some? ==>
      forall h' :: IsFenceMatch(s, h') && p <= h'.p ==>
        FirstFenceFrom(s, p).value.p < h'.p
        || (FirstFenceFrom(s, p).value.p == h'.p && FirstFenceFrom(s, p).value.e <= h'.e)
    ensures FirstFenceFrom(s, p).None? ==> forall h' :: IsFenceMatch(s, h') ==> h'.p < p
    decreases |s| - p
  {
    forall h' | IsFenceMatch(s, h') && h'.p == p
      ensures FenceMatchAt(s, p).Some? && FenceMatchAt(s, p).value.e <= h'.e
    {
      FenceMatchAtComplete(s, h');
    }
    if FenceMatchAt(s, p).None? && p < |s| {
      FirstFenceFromSpec(s, p + 1);
    }
  }

  /** The fenced alternative: the match the engine reports, if there is one. */
  function FirstFence(s: string): (r: Option<FenceHit>)
    ensures r.Some? <==> HasFenceMatch(s)
    ensures r.Some? ==> IsReportedFence(s, r.value)
  {
    FirstFenceFromSpec(s, 0);
    FirstFenceFrom(s, 0)
  }

  /** One match of `\{[\s\S]*\}`: a `{` at o and a later `}` at c. */
  predicate IsBraceMatch(s: string, o: nat, c: nat) {
    o < c < |s| && s[o] == '{' && s[c] == '}'
  }

  ghost predicate HasBraceMatch(s: string) {
    exists o: nat, c: nat :: IsBraceMatch(s, o, c)
  }

  /** The match the engine reports: the leftmost start, then the greedy (longest) span. */
  ghost predicate IsReportedBraces(s: string, o: nat, c: nat) {
    && IsBraceMatch(s, o, c)
    && (forall o': nat, c': nat :: IsBraceMatch(s, o', c') ==> o <= o')
    && (forall c': nat :: IsBraceMatch(s, o, c') ==> c' <= c)
  }

  /** Every `{` in s is an occurrence of the one-character string "{". */
  lemma OpenBracesOccur(s: string)
    ensures forall o :: 0 <= o < |s| && s[o] == '{' ==> OccursAt(s, "{", o)
  {
    forall o | 0 <= o < |s| && s[o] == '{' ensures OccursAt(s, "{", o) {
      assert s[o..o + 1] == [s[o]];
    }
  }

  /** The greedy alternative: from the first `{` to the last `}`, when the last `}` comes after it. */
  function BraceSpan(s: string): (r: Option<(nat, nat)>)
    ensures r.Some? <==> HasBraceMatch(s)
    ensures r.Some? ==> IsReportedBraces(s, r.value.0, r.value.1)
  {
    OpenBracesOccur(s);
    var first := IndexOfFrom(s, "{", 0);
    var last := LastIndexOf(s, '}', |s|);
    if first.Some? && last.Some? && first.value < last.value then
      var o, c := first.value, last.value;
      assert s[o] == s[o..o + 1][0] == '{';
      assert IsBraceMatch(s, o, c);
      Some((o, c))
    else
      None
  }

  /** Which alternative supplies the JSON text. */
  datatype Choice = Fenced(hit: FenceHit) | Braces(open: nat, close: nat) | Whole

  /** The ordered alternatives: the fenced block wins, then the greedy brace span, then the whole reply. */
  function Choose(s: string): (ch: Choice)
    ensures ch.Fenced? <==> HasFenceMatch(s)
    ensures ch.Fenced? ==> IsReportedFence(s, ch.hit)
    ensures ch.Braces? <==> !HasFenceMatch(s) && HasBraceMatch(s)
    ensures ch.Braces? ==> IsReportedBraces(s, ch.open, ch.close)
    ensures ch.Whole? <==> !HasFenceMatch(s) && !HasBraceMatch(s)
  {
    match FirstFence(s)
    case Some(h) => Fenced(h)
    case None =>
      match BraceSpan(s)
      case Some((o, c)) => Braces(o, c)
      case None => Whole
  }

  /** The text of the chosen alternative: the capture group of a fenced match, the whole brace match, or the whole reply. */
  function Chosen(s: string): (t: string)
    ensures Choose(s).Fenced? ==> t == s[Choose(s).hit.q..Choose(s).hit.f]
    ensures Choose(s).Braces? ==> t == s[Choose(s).open..Choose(s).close + 1]
    ensures Choose(s).Whole? ==> t == s
  {
    match Choose(s)
    case Fenced(h) => s[h.q..h.f]
    case Braces(o, c) => s[o..c + 1]
    case Whole => s
  }

  /** The string handed to JSON.parse: the chosen text, trimmed; it has no surrounding whitespace. */
  function JsonText(s: string): (t: string)
    ensures t == Trim(Chosen(s))
    ensures Trim(t) == t
    ensures t != [] ==> !IsSpace(t[0]) && !IsSpace(t[|t| - 1])
  {
    var c := Chosen(s);
    TrimIdempotent(c);
    Trim(c)
  }

  /**
   A fenced match chosen without ambiguity: nothing before it looks like a fence and no earlier `}`
   of its object can close the block; then the text parsed is that match's capture group.
   */
  lemma ChosenFence(s: string, h: FenceHit)
    requires IsFenceMatch(s, h)
    requires forall k :: 0 <= k < h.p ==> s[k] != '`'
    requires forall k :: h.o < k < h.e ==> !ClosesAt(s, k)
    ensures Chosen(s) == s[h.q..h.f]
  {
    var r := Choose(s).hit;
    ReportedIsUnambiguous(s, h, r);
  }

  /** Under ChosenFence's conditions the reported match is the given one. */
  lemma ReportedIsUnambiguous(s: string, h: FenceHit, r: FenceHit)
    requires IsFenceMatch(s, h) && IsReportedFence(s, r)
    requires forall k :: 0 <= k < h.p ==> s[k] != '`'
    requires forall k :: h.o < k < h.e ==> !ClosesAt(s, k)
    ensures r == h
  {
    assert r.p < h.p || (r.p == h.p && r.e <= h.e);
    assert r.p == h.p by {
      assert s[r.p] == s[r.p..r.p + 3][0] == '`';
    }
    SameStartSameOpen(s, r, h);
    MatchEndCloses(s, r);
    FenceHitDetermined(s, r, h);
  }

  /** The `}` ending a fenced match can close the block. */
  lemma MatchEndCloses(s: string, h: FenceHit)
    requires IsFenceMatch(s, h)
    ensures ClosesAt(s, h.e)
  {
    assert s[h.f] == s[h.f..h.f + 3][0] == '`';
    SpanIsUnique(s, h.e + 1, h.f, Space);
  }

  /** Two fenced matches at one start open their object at the same `{`. */
  lemma SameStartSameOpen(s: string, a: FenceHit, b: FenceHit)
    requires IsFenceMatch(s, a) && IsFenceMatch(s, b) && a.p == b.p
    ensures a.q == b.q && a.o == b.o
  {
    if OccursAt(s, Tag, a.p + 3) {
      assert s[a.p + 3] == s[a.p + 3..a.p + 7][0] == 'j';
    }
    SpanIsUnique(s, a.q, a.o, Space);
    SpanIsUnique(s, b.q, b.o, Space);
  }

  /** A reply block holding obj: the fence, the `json` tag, obj on its own line, the closing fence. */
  function FencedJson(obj: string): (m: string)
    ensures |m| == |obj| + 12
  {
    Fence + Tag + ("\n" + obj + "\n") + Fence
  }

  /** The parts of a three-part concatenation sit one after the other. */
  lemma ConcatParts(a: string, b: string, c: string, i: nat, j: nat)
    requires i <= j <= |b|
    ensures (a + b + c)[..|a|] == a
    ensures (a + b + c)[|a| + i..|a| + j] == b[i..j]
    ensures (a + b + c)[|a| + |b|..] == c
  {
    var s := a + b + c;
    assert s[|a| + i..|a| + j] == b[i..j] by {
      forall k | 0 <= k < j - i ensures s[|a| + i..|a| + j][k] == b[i..j][k] {
        assert s[|a| + i + k] == b[i + k];
      }
    }
  }

  /** Where fence, tag, line breaks and object sit in the block. */
  lemma FencedJsonLayout(obj: string)
    ensures var m, n := FencedJson(obj), |obj|;
      && m[0..3] == Fence && m[3..7] == Tag
      && m[7..9 + n] == "\n" + obj + "\n"
      && m[8..8 + n] == obj
      && m[9 + n..12 + n] == Fence
  {
    var m, n, g := FencedJson(obj), |obj|, "\n" + obj + "\n";
    ConcatParts(Fence + Tag, g, Fence, 0, |g|);
    ConcatParts(Fence + Tag, g, Fence, 1, 1 + n);
    assert g[1..1 + n] == obj;
    assert m[..7] == Fence + Tag;
    assert m[0..3] == m[..7][0..3];
    assert m[3..7] == m[..7][3..7];
  }

  /** Where the prose, the block's pieces and the object sit in the reply. */
  lemma FencedObjectLayout(pre: string, obj: string, post: string)
    ensures var s, p, n := pre + FencedJson(obj) + post, |pre|, |obj|;
      && |s| == p + 12 + n + |post|
      && s[..p] == pre
      && s[p..p + 3] == Fence && s[p + 3..p + 7] == Tag
      && s[p + 7..p + 9 + n] == "\n" + obj + "\n"
      && s[p + 8..p + 8 + n] == obj
      && s[p + 9 + n..p + 12 + n] == Fence
  {
    var m, n := FencedJson(obj), |obj|;
    FencedJsonLayout(obj);
    ConcatParts(pre, m, post, 0, 3);
    ConcatParts(pre, m, post, 3, 7);
    ConcatParts(pre, m, post, 7, 9 + n);
    ConcatParts(pre, m, post, 8, 8 + n);
    ConcatParts(pre, m, post, 9 + n, 12 + n);
  }

  /** The prose-wrapped fenced object of FencedObjectIsParsed, as a fenced match nothing precedes. */
  lemma FencedObjectHit(pre: string, obj: string, post: string) returns (h: FenceHit)
    requires |obj| >= 2 && obj[0] == '{' && obj[|obj| - 1] == '}'
    requires forall i :: 0 <= i < |pre| ==> pre[i] != '`'
    requires forall i :: 0 <= i < |obj| ==> obj[i] != '`'
    ensures var s := pre + FencedJson(obj) + post;
      && IsFenceMatch(s, h)
      && (forall k :: 0 <= k < h.p ==> s[k] != '`')
      && (forall k :: h.o < k < h.e ==> !ClosesAt(s, k))
      && s[h.q..h.f] == "\n" + obj + "\n"
  {
    var s, p, n := pre + FencedJson(obj) + post, |pre|, |obj|;
    h := FenceHit(p, p + 7, p + 8, p + 7 + n, p + 9 + n);
    FencedObjectLayout(pre, obj, post);
    assert s[p + 7] == s[p + 7..p + 9 + n][0];
    assert s[h.o] == s[p + 8..p + 8 + n][0];
    assert s[h.e] == s[p + 8..p + 8 + n][n - 1];
    assert s[h.e + 1] == s[p + 7..p + 9 + n][n + 1];
    assert IsFenceMatch(s, h);
    forall k | 0 <= k < p ensures s[k] != '`' {
      assert s[k] == s[..p][k];
    }
    forall k | h.o < k < h.e ensures !ClosesAt(s, k) {
      InnerBraceDoesNotClose(s, h, k, p + 8, obj);
    }
  }

  /**
   A `}` inside an object that holds no backquote cannot close the block: the spaces after it end
   at or before the object's last `}`, where no fence can start.
   */
  lemma InnerBraceDoesNotClose(s: string, h: FenceHit, k: nat, start: nat, obj: string)
    requires IsFenceMatch(s, h) && h.o < k < h.e
    requires start == h.o && start + |obj| == h.e + 1 && s[start..h.e + 1] == obj
    requires forall i :: 0 <= i < |obj| ==> obj[i] != '`'
    ensures !ClosesAt(s, k)
  {
    if s[k] == '}' {
      var j := Span(s, k + 1, Space);
      assert j <= h.e;
      assert s[j] == obj[j - start] by {
        assert s[j] == s[start..h.e + 1][j - start];
      }
    }
  }

  /**
   A fenced object inside prose: the text parsed is exactly the object between the fences, nested
   objects included, provided the object holds no backquote.
   */
  lemma FencedObjectIsParsed(pre: string, obj: string, post: string)
    requires |obj| >= 2 && obj[0] == '{' && obj[|obj| - 1] == '}'
    requires forall i :: 0 <= i < |pre| ==> pre[i] != '`'
    requires forall i :: 0 <= i < |obj| ==> obj[i] != '`'
    ensures JsonText(pre + FencedJson(obj) + post) == obj
  {
    var s := pre + FencedJson(obj) + post;
    var h := FencedObjectHit(pre, obj, post);
    ChosenFence(s, h);
    var g := "\n" + obj + "\n";
    assert g[1..1 + |obj|] == obj;
    assert AllIn(g, 0, 1, Space) && AllIn(g, 1 + |obj|, |g|, Space);
    TrimOfPadded(g, 1, 1 + |obj|);
  }
}

=== FILE: listing.dfy ===
/**
 The listing record (src/types/Listing.ts), with the two fields the components also read and write
 although the interface leaves them out: `price` and `allowsPets`. `notes` is optional in the
 interface; `price` and `allowsPets` may be missing from records stored before they existed.
 */
module ListingModel {
  import opened Optional

  datatype Listing = Listing(
    id: string,
    url: string,
    address: string,
    listingCreator: string,
    contactInfo: string,
    hasApplied: bool,
    notes: Option<string>,
    dateAdded: string,
    dateUpdated: string,
    price: Option<string>,
    allowsPets: Option<bool>)

  /** The form's data, `Omit<Listing, 'id' | 'dateAdded' | 'dateUpdated'>` as the form fills it: every field present. */
  datatype Draft = Draft(
    url: string,
    address: string,
    listingCreator: string,
    contactInfo: string,
    price: string,
    allowsPets: bool,
    hasApplied: bool,
    notes: string)

  /** The listing holds exactly the draft's values in the draft's fields. */
  predicate Carries(l: Listing, d: Draft) {
    && l.url == d.url && l.address == d.address && l.listingCreator == d.listingCreator
    && l.contactInfo == d.contactInfo && l.price == Some(d.price) && l.allowsPets == Some(d.allowsPets)
    && l.hasApplied == d.hasApplied && l.notes == Some(d.notes)
  }

  /** `{...draft, id, dateAdded, dateUpdated}`: a new listing from a draft. */
  function Adopt(d: Draft, id: string, dateAdded: string, dateUpdated: string): (l: Listing)
    ensures Carries(l, d)
    ensures l.id == id && l.dateAdded == dateAdded && l.dateUpdated == dateUpdated
  {
    Listing(id, d.url, d.address, d.listingCreator, d.contactInfo, d.hasApplied, Some(d.notes),
      dateAdded, dateUpdated, Some(d.price), Some(d.allowsPets))
  }

  /** `{...listing, ...draft}`: the draft's fields override, the rest comes from the listing. */
  function Overlay(l: Listing, d: Draft): (r: Listing)
    ensures Carries(r, d)
    ensures r.id == l.id && r.dateAdded == l.dateAdded && r.dateUpdated == l.dateUpdated
  {
    l.(url := d.url, address := d.address, listingCreator := d.listingCreator, contactInfo := d.contactInfo,
       price := Some(d.price), allowsPets := Some(d.allowsPets), hasApplied := d.hasApplied,
       notes := Some(d.notes))
  }

  /** A listing is fixed by its draft fields and its id and dates: Carries leaves no other freedom. */
  lemma CarriesDetermines(l1: Listing, l2: Listing, d: Draft)
    requires Carries(l1, d) && Carries(l2, d)
    requires l1.id == l2.id && l1.dateAdded == l2.dateAdded && l1.dateUpdated == l2.dateUpdated
    ensures l1 == l2
  {
  }

  /** The keys of a listing (`keyof Listing`, with price and allowsPets). */
  datatype Field =
    | Id | Url | Address | ListingCreator | ContactInfo | HasApplied | Notes
    | DateAdded | DateUpdated | Price | AllowsPets

  /** The fields that hold a string (the others are booleans). */
  predicate IsTextField(f: Field) {
    f != HasApplied && f != AllowsPets
  }

  /** A boolean as the text "true" or "false". */
  function BoolText(b: bool): (t: string) {
    if b then "true" else "false"
  }

  /** A field's value as text, `''` when it is undefined. */
  function FieldText(l: Listing, f: Field): (t: string) {
    match f
    case Id => l.id
    case Url => l.url
    case Address => l.address
    case ListingCreator => l.listingCreator
    case ContactInfo => l.contactInfo
    case HasApplied => BoolText(l.hasApplied)
    case Notes => l.notes.GetOr("")
    case DateAdded => l.dateAdded
    case DateUpdated => l.dateUpdated
    case Price => l.price.GetOr("")
    case AllowsPets => if l.allowsPets.Some? then BoolText(l.allowsPets.value) else ""
  }

  /** The listing with one string-valued field set to v. */
  function WithText(l: Listing, f: Field, v: string): (r: Listing)
    requires IsTextField(f)
    ensures FieldText(r, f) == v
    ensures forall g :: g != f ==> FieldText(r, g) == FieldText(l, g)
    ensures r.hasApplied == l.hasApplied && r.allowsPets == l.allowsPets
    ensures f != Price ==> r.price == l.price
    ensures f != Notes ==> r.notes == l.notes
    ensures f == Price ==> r.price == Some(v)
    ensures f == Notes ==> r.notes == Some(v)
  {
    match f
    case Id => l.(id := v)
    case Url => l.(url := v)
    case Address => l.(address := v)
    case ListingCreator => l.(listingCreator := v)
    case ContactInfo => l.(contactInfo := v)
    case Notes => l.(notes := Some(v))
    case DateAdded => l.(dateAdded := v)
    case DateUpdated => l.(dateUpdated := v)
    case Price => l.(price := Some(v))
  }
}

=== FILE: listing_form.dfy ===
/**
 The add/edit form (src/components/ListingForm.tsx) as a state machine: the form data, the
 `scraping` flag, the scrape error and the scrape-success flag are one explicit state; each
 handler is a function from state (and event) to state. The scrape request is split in two: the
 part before the awaited call and the part after it, the call's outcome being an input.
 */
module ListingForm {
  import opened Optional
  import opened ListingModel

  const EmptyUrlMessage := "Please enter a URL to scrape"
  const ScrapeFailedMessage := "Failed to scrape listing details"
  const ScrapeThrewMessage := "An error occurred while scraping"

  datatype FormState = FormState(data: Draft, scraping: bool, scrapeError: Option<string>, scrapeSuccess: bool)

  /** The state the form starts in: every text empty, both boxes unticked, no scrape. */
  const Blank := Draft("", "", "", "", "", false, false, "")
  const Initial := FormState(Blank, false, None, false)

  /** The form's inputs, by their `name` attribute. */
  datatype Input = UrlInput | AddressInput | CreatorInput | ContactInput | PriceInput | PetsInput | AppliedInput | NotesInput

  /** The two inputs rendered with `type="checkbox"`. */
  predicate IsCheckbox(n: Input) {
    n == PetsInput || n == AppliedInput
  }

  /** The value a text input shows. */
  function TextOf(d: Draft, n: Input): (t: string)
    requires !IsCheckbox(n)
  {
    match n
    case UrlInput => d.url
    case AddressInput => d.address
    case CreatorInput => d.listingCreator
    case ContactInput => d.contactInfo
    case PriceInput => d.price
    case NotesInput => d.notes
  }

  /** Whether a checkbox is ticked. */
  function FlagOf(d: Draft, n: Input): (b: bool)
    requires IsCheckbox(n)
  {
    if n == PetsInput then d.allowsPets else d.hasApplied
  }

  /** A change event: the input's name, its text value and its checked state. */
  datatype Change = Change(name: Input, value: string, checked: bool)

  /** The draft with the named input set: `checked` for a checkbox, `value` otherwise. */
  function SetInput(d: Draft, e: Change): (r: Draft)
    ensures IsCheckbox(e.name) ==> FlagOf(r, e.name) == e.checked
    ensures !IsCheckbox(e.name) ==> TextOf(r, e.name) == e.value
    ensures forall n :: n != e.name && IsCheckbox(n) ==> FlagOf(r, n) == FlagOf(d, n)
    ensures forall n :: n != e.name && !IsCheckbox(n) ==> TextOf(r, n) == TextOf(d, n)
  {
    match e.name
    case UrlInput => d.(url := e.value)
    case AddressInput => d.(address := e.value)
    case CreatorInput => d.(listingCreator := e.value)
    case ContactInput => d.(contactInfo := e.value)
    case PriceInput => d.(price := e.value)
    case PetsInput => d.(allowsPets := e.checked)
    case AppliedInput => d.(hasApplied := e.checked)
    case NotesInput => d.(notes := e.value)
  }

  /** `handleChange`: the named input takes the event's value; editing the url resets the scrape status. */
  function HandleChange(st: FormState, e: Change): (r: FormState)
    ensures r.data == SetInput(st.data, e)
    ensures r.scraping == st.scraping
    ensures e.name == UrlInput ==> r.scrapeError == None && !r.scrapeSuccess
    ensures e.name != UrlInput ==> r.scrapeError == st.scrapeError && r.scrapeSuccess == st.scrapeSuccess
  {
    var st' := if e.name == UrlInput then st.(scrapeSuccess := false, scrapeError := None) else st;
    st'.(data := SetInput(st.data, e))
  }

  /** A draft is determined by what its inputs show. */
  lemma DraftByInputs(d1: Draft, d2: Draft)
    requires forall n :: !IsCheckbox(n) ==> TextOf(d1, n) == TextOf(d2, n)
    requires forall n :: IsCheckbox(n) ==> FlagOf(d1, n) == FlagOf(d2, n)
    ensures d1 == d2
  {
    assert TextOf(d1, UrlInput) == TextOf(d2, UrlInput);
    assert TextOf(d1, AddressInput) == TextOf(d2, AddressInput);
    assert TextOf(d1, CreatorInput) == TextOf(d2, CreatorInput);
    assert TextOf(d1, ContactInput) == TextOf(d2, ContactInput);
    assert TextOf(d1, PriceInput) == TextOf(d2, PriceInput);
    assert TextOf(d1, NotesInput) == TextOf(d2, NotesInput);
    assert FlagOf(d1, PetsInput) == FlagOf(d2, PetsInput);
    assert FlagOf(d1, AppliedInput) == FlagOf(d2, AppliedInput);
  }

  /** Typing back the value an input already shows leaves the form data as it was. */
  lemma ChangeToSameValue(st: FormState, n: Input)
    requires !IsCheckbox(n)
    ensures HandleChange(st, Change(n, TextOf(st.data, n), false)).data == st.data
  {
    DraftByInputs(HandleChange(st, Change(n, TextOf(st.data, n), false)).data, st.data);
  }

  /** Two changes to the same input: the later one wins. */
  lemma LaterChangeWins(st: FormState, e1: Change, e2: Change)
    requires e1.name == e2.name
    ensures HandleChange(HandleChange(st, e1), e2).data == HandleChange(st, e2).data
  {
    DraftByInputs(HandleChange(HandleChange(st, e1), e2).data, HandleChange(st, e2).data);
  }

  /** The `initialData` effect: the listing's values, a missing price or notes as '' and missing pets as false. */
  function LoadInitial(st: FormState, initial: Option<Listing>): (r: FormState)
    ensures initial.None? ==> r == st
    ensures initial.Some? ==> (Carries(initial.value, r.data) <==>
      initial.value.price.Some? && initial.value.allowsPets.Some? && initial.value.notes.Some?)
    ensures initial.Some? ==> var l := initial.value;
      && r.data.url == l.url && r.data.address == l.address && r.data.listingCreator == l.listingCreator
      && r.data.contactInfo == l.contactInfo && r.data.hasApplied == l.hasApplied
      && (l.price.None? ==> r.data.price == "") && (l.notes.None? ==> r.data.notes == "")
      && (l.allowsPets.None? ==> !r.data.allowsPets)
    ensures r.scraping == st.scraping && r.scrapeError == st.scrapeError && r.scrapeSuccess == st.scrapeSuccess
  {
    match initial
    case None => st
    case Some(l) =>
      st.(data := Draft(l.url, l.address, l.listingCreator, l.contactInfo, l.price.GetOr(""),
        l.allowsPets.GetOr(false), l.hasApplied, l.notes.GetOr("")))
  }

  /**
   Opening a listing in the form and submitting it untouched gives the listing back (before the
   store stamps it), once its optional fields are filled with their defaults.
   */
  lemma LoadThenOverlay(st: FormState, l: Listing)
    ensures var d := LoadInitial(st, Some(l)).data;
      Overlay(l, d) == l.(price := Some(l.price.GetOr("")), notes := Some(l.notes.GetOr("")),
        allowsPets := Some(l.allowsPets.GetOr(false)))
    ensures l.price.Some? && l.allowsPets.Some? && l.notes.Some? ==> Overlay(l, LoadInitial(st, Some(l)).data) == l
  {
  }

  /** What the server returned about the listing (the fields the form reads; a missing one as '' or false). */
  datatype Scraped = Scraped(address: string, listingCreator: string, contactInfo: string, price: string, allowsPets: bool)

  /** The scraper client's reply: `{success, data?, error?}`. */
  datatype ScrapeResponse = ScrapeResponse(success: bool, data: Option<Scraped>, error: Option<string>)

  /** The awaited call: it throws, or it returns a reply. */
  datatype ScrapeCall = Threw | Returned(response: ScrapeResponse)

  /** A string with a default: the string when non-empty, else the default. */
  function OrText(a: string, b: string): (r: string)
    ensures a != "" ==> r == a
    ensures a == "" ==> r == b
  {
    if a != "" then a else b
  }

  /** The merge on success: a non-empty scraped value wins; pets are or-ed; url, applied and notes stay. */
  function Merge(prev: Draft, s: Scraped): (r: Draft)
    ensures r.address == OrText(s.address, prev.address)
    ensures r.listingCreator == OrText(s.listingCreator, prev.listingCreator)
    ensures r.contactInfo == OrText(s.contactInfo, prev.contactInfo)
    ensures r.price == OrText(s.price, prev.price)
    ensures r.allowsPets == (s.allowsPets || prev.allowsPets)
    ensures r.url == prev.url && r.hasApplied == prev.hasApplied && r.notes == prev.notes
  {
    prev.(address := OrText(s.address, prev.address),
          listingCreator := OrText(s.listingCreator, prev.listingCreator),
          contactInfo := OrText(s.contactInfo, prev.contactInfo),
          price := OrText(s.price, prev.price),
          allowsPets := s.allowsPets || prev.allowsPets)
  }

  /** A scrape never unticks pets, and never touches url, applied or notes. */
  lemma MergeKeeps(prev: Draft, s: Scraped)
    ensures prev.allowsPets ==> Merge(prev, s).allowsPets
    ensures Merge(prev, s).url == prev.url
    ensures Merge(prev, s).hasApplied == prev.hasApplied
    ensures Merge(prev, s).notes == prev.notes
  {
  }

  /** Merging the same scrape twice is merging it once. */
  lemma MergeIdempotent(prev: Draft, s: Scraped)
    ensures Merge(Merge(prev, s), s) == Merge(prev, s)
  {
  }

  /** An empty scrape leaves the draft as it was. */
  lemma MergeEmpty(prev: Draft)
    ensures Merge(prev, Scraped("", "", "", "", false)) == prev
  {
  }

  /** A scrape with every text field filled decides those fields whatever the draft held. */
  lemma MergeFullScrape(p1: Draft, p2: Draft, s: Scraped)
    requires s.address != "" && s.listingCreator != "" && s.contactInfo != "" && s.price != ""
    ensures var r1, r2 := Merge(p1, s), Merge(p2, s);
      r1.address == r2.address && r1.listingCreator == r2.listingCreator
      && r1.contactInfo == r2.contactInfo && r1.price == r2.price
  {
  }

  /** The part of `handleScrape` before the call: scraping on, status cleared. */
  function StartScrape(st: FormState): (r: FormState)
    ensures r.scraping && r.scrapeError == None && !r.scrapeSuccess && r.data == st.data
  {
    st.(scraping := true, scrapeError := None, scrapeSuccess := false)
  }

  /** The error text a failed reply shows: its own `error` unless missing or empty. */
  function FailureText(resp: ScrapeResponse): (m: string)
    ensures resp.error.Some? && resp.error.value != "" ==> m == resp.error.value
    ensures resp.error.None? || resp.error.value == "" ==> m == ScrapeFailedMessage
    ensures m != ""
  {
    if resp.error.Some? && resp.error.value != "" then resp.error.value else ScrapeFailedMessage
  }

  /**
   The part after the call, on the state current when it returns (the merge reads `prev`):
   merge and success, or an error; scraping is off in every case.
   */
  function FinishScrape(st: FormState, call: ScrapeCall): (r: FormState)
    ensures !r.scraping
    ensures call.Returned? && call.response.success && call.response.data.Some? ==>
      r.data == Merge(st.data, call.response.data.value) && r.scrapeSuccess && r.scrapeError == st.scrapeError
    ensures call.Returned? && !(call.response.success && call.response.data.Some?) ==>
      r.data == st.data && r.scrapeError == Some(FailureText(call.response)) && r.scrapeSuccess == st.scrapeSuccess
    ensures call.Threw? ==>
      r.data == st.data && r.scrapeError == Some(ScrapeThrewMessage) && r.scrapeSuccess == st.scrapeSuccess
  {
    var st' :=
      match call
      case Returned(resp) =>
        if resp.success && resp.data.Some? then st.(data := Merge(st.data, resp.data.value), scrapeSuccess := true)
        else st.(scrapeError := Some(FailureText(resp)))
      case Threw => st.(scrapeError := Some(ScrapeThrewMessage));
    st'.(scraping := false)
  }

  /** `handleScrape` with nothing typed in between: an empty url stops it before the call. */
  function HandleScrape(st: FormState, call: ScrapeCall): (r: FormState)
    ensures st.data.url == "" ==>
      r == st.(scrapeError := Some(EmptyUrlMessage))
    ensures st.data.url != "" ==> !r.scraping && r.data.url == st.data.url
    ensures st.data.url != "" && call.Returned? && call.response.success && call.response.data.Some? ==>
      r.scrapeSuccess && r.scrapeError == None
    ensures st.data.url != "" && !(call.Returned? && call.response.success && call.response.data.Some?) ==>
      r.data == st.data && !r.scrapeSuccess && r.scrapeError.Some?
  {
    if st.data.url == "" then st.(scrapeError := Some(EmptyUrlMessage))
    else FinishScrape(StartScrape(st), call)
  }

  /** With an empty url, the outcome of the call is irrelevant: the call is never made. */
  lemma EmptyUrlSkipsCall(st: FormState, c1: ScrapeCall, c2: ScrapeCall)
    requires st.data.url == ""
    ensures HandleScrape(st, c1) == HandleScrape(st, c2)
    ensures HandleScrape(st, c1).data == st.data
  {
  }

  /** A scrape changes the draft only through the merge: url, applied and notes survive any outcome. */
  lemma ScrapeKeepsOwnFields(st: FormState, call: ScrapeCall)
    ensures var r := HandleScrape(st, call);
      r.data.url == st.data.url && r.data.hasApplied == st.data.hasApplied && r.data.notes == st.data.notes
      && (st.data.allowsPets ==> r.data.allowsPets)
  {
  }
}

=== FILE: listing_service.dfy ===
/**
 The listing store (src/services/ListingService.ts). The `craigslist-listings` localStorage entry is
 an explicit state: None when nothing was ever written, otherwise the stored sequence (its JSON
 serialisation is left out). Ids and timestamps are parameters.
 */
module ListingService {
  import opened Optional
  import opened ListingModel

  type Storage = Option<seq<Listing>>

  /** `getListings`: the stored sequence, or the empty one when nothing is stored. */
  function GetListings(st: Storage): (ls: seq<Listing>)
    ensures st.None? ==> ls == []
    ensures st.Some? ==> ls == st.value
  {
    st.GetOr([])
  }

  /** No two listings share an id. */
  predicate UniqueIds(ls: seq<Listing>) {
    forall i, j :: 0 <= i < j < |ls| ==> ls[i].id != ls[j].id
  }

  predicate HasId(ls: seq<Listing>, id: string) {
    exists i :: 0 <= i < |ls| && ls[i].id == id
  }

  /** The result of a write: the new storage and the listing the call returns. */
  datatype Written = Written(store: Storage, listing: Listing)

  /**
   `addListing`: the draft with the given id and timestamps (two separate clock readings in the
   source), appended after every stored listing.
   */
  function AddListing(st: Storage, d: Draft, id: string, dateAdded: string, dateUpdated: string): (w: Written)
    ensures GetListings(w.store) == GetListings(st) + [w.listing]
    ensures |GetListings(w.store)| == |GetListings(st)| + 1
    ensures forall i :: 0 <= i < |GetListings(st)| ==> GetListings(w.store)[i] == GetListings(st)[i]
    ensures Carries(w.listing, d)
    ensures w.listing.id == id && w.listing.dateAdded == dateAdded && w.listing.dateUpdated == dateUpdated
    ensures GetListings(w.store)[|GetListings(w.store)| - 1] == w.listing
  {
    var l := Adopt(d, id, dateAdded, dateUpdated);
    Written(Some(GetListings(st) + [l]), l)
  }

  /** Every listing with w's id replaced by w, the others left in place. */
  function ReplaceById(ls: seq<Listing>, w: Listing): (r: seq<Listing>)
    ensures |r| == |ls|
    ensures forall i :: 0 <= i < |ls| ==> r[i] == (if ls[i].id == w.id then w else ls[i])
  {
    if |ls| == 0 then []
    else ReplaceById(ls[..|ls| - 1], w) + [if ls[|ls| - 1].id == w.id then w else ls[|ls| - 1]]
  }

  /**
   `updateListing`: the argument with a fresh `dateUpdated` replaces every stored listing with its
   id; order and length are kept, and the argument-with-date is returned.
   */
  function UpdateListing(st: Storage, l: Listing, now: string): (w: Written)
    ensures w.listing == l.(dateUpdated := now)
    ensures |GetListings(w.store)| == |GetListings(st)|
    ensures forall i :: 0 <= i < |GetListings(st)| ==>
      GetListings(w.store)[i] == (if GetListings(st)[i].id == l.id then w.listing else GetListings(st)[i])
    ensures !HasId(GetListings(st), l.id) ==> GetListings(w.store) == GetListings(st)
  {
    var stamped := l.(dateUpdated := now);
    Written(Some(ReplaceById(GetListings(st), stamped)), stamped)
  }

  /** The listings whose id differs from the given one, in their order. */
  function RemoveId(ls: seq<Listing>, id: string): (r: seq<Listing>)
    ensures |r| <= |ls|
    ensures forall x :: x in r <==> x in ls && x.id != id
  {
    if |ls| == 0 then []
    else if ls[|ls| - 1].id == id then RemoveId(ls[..|ls| - 1], id)
    else RemoveId(ls[..|ls| - 1], id) + [ls[|ls| - 1]]
  }

  /** Filtering distributes over concatenation: the kept listings stay in their order. */
  lemma {:induction false} RemoveIdAppend(a: seq<Listing>, b: seq<Listing>, id: string)
    ensures RemoveId(a + b, id) == RemoveId(a, id) + RemoveId(b, id)
    decreases |b|
  {
    if |b| == 0 {
      assert a + b == a;
    } else {
      var b' := b[..|b| - 1];
      assert (a + b)[..|a + b| - 1] == a + b';
      assert (a + b)[|a + b| - 1] == b[|b| - 1];
      RemoveIdAppend(a, b', id);
    }
  }

  /** Filtering one listing keeps it exactly when its id differs. */
  lemma RemoveIdOne(x: Listing, id: string)
    ensures RemoveId([x], id) == (if x.id == id then [] else [x])
  {
    assert [x][..0] == [];
  }

  /** Without a listing of that id, filtering changes nothing. */
  lemma {:induction false} RemoveAbsentId(ls: seq<Listing>, id: string)
    requires !HasId(ls, id)
    ensures RemoveId(ls, id) == ls
  {
    if |ls| > 0 {
      var ls' := ls[..|ls| - 1];
      assert forall i :: 0 <= i < |ls'| ==> ls'[i] == ls[i];
      RemoveAbsentId(ls', id);
      assert ls[|ls| - 1].id != id;
      assert ls' + [ls[|ls| - 1]] == ls;
    }
  }

  /** `deleteListing`: the stored listings without those of the given id, in their order. */
  function DeleteListing(st: Storage, id: string): (r: Storage)
    ensures r.Some?
    ensures forall x :: x in GetListings(r) <==> x in GetListings(st) && x.id != id
    ensures !HasId(GetListings(r), id)
  {
    Some(RemoveId(GetListings(st), id))
  }

  /** Deleting twice is deleting once. */
  lemma DeleteIdempotent(st: Storage, id: string)
    ensures DeleteListing(DeleteListing(st, id), id) == DeleteListing(st, id)
  {
    RemoveAbsentId(GetListings(DeleteListing(st, id)), id);
  }

  /** Deleting an id that is not stored keeps the stored sequence as it was. */
  lemma DeleteAbsentIdKeepsListings(st: Storage, id: string)
    requires !HasId(GetListings(st), id)
    ensures GetListings(DeleteListing(st, id)) == GetListings(st)
  {
    RemoveAbsentId(GetListings(st), id);
  }

  /** Adding under an id not yet stored keeps ids unique. */
  lemma AddKeepsIdsUnique(st: Storage, d: Draft, id: string, dateAdded: string, dateUpdated: string)
    requires UniqueIds(GetListings(st)) && !HasId(GetListings(st), id)
    ensures UniqueIds(GetListings(AddListing(st, d, id, dateAdded, dateUpdated).store))
  {
    var ls := GetListings(st);
    var ls' := GetListings(AddListing(st, d, id, dateAdded, dateUpdated).store);
    forall i, j | 0 <= i < j < |ls'| ensures ls'[i].id != ls'[j].id {
      if j == |ls| {
        assert ls'[i] == ls[i];
      }
    }
  }

  /** Updating keeps the ids of the stored listings, position by position, so it keeps them unique. */
  lemma UpdateKeepsIds(st: Storage, l: Listing, now: string)
    ensures var ls, ls' := GetListings(st), GetListings(UpdateListing(st, l, now).store);
      forall i :: 0 <= i < |ls| ==> ls'[i].id == ls[i].id
    ensures UniqueIds(GetListings(st)) ==> UniqueIds(GetListings(UpdateListing(st, l, now).store))
  {
  }

  /** Filtering keeps ids unique. */
  lemma {:induction false} RemoveIdKeepsIdsUnique(ls: seq<Listing>, id: string)
    requires UniqueIds(ls)
    ensures UniqueIds(RemoveId(ls, id))
  {
    if |ls| > 0 {
      var ls' := ls[..|ls| - 1];
      var x := ls[|ls| - 1];
      RemoveIdKeepsIdsUnique(ls', id);
      if x.id != id {
        var r := RemoveId(ls', id) + [x];
        forall i, j | 0 <= i < j < |r| ensures r[i].id != r[j].id {
          if j == |r| - 1 {
            assert r[i] in RemoveId(ls', id);
            var k :| 0 <= k < |ls'| && ls'[k] == r[i];
            assert ls[k] == r[i];
          }
        }
      }
    }
  }

  lemma DeleteKeepsIdsUnique(st: Storage, id: string)
    requires UniqueIds(GetListings(st))
    ensures UniqueIds(GetListings(DeleteListing(st, id)))
  {
    RemoveIdKeepsIdsUnique(GetListings(st), id);
  }
}

=== FILE: listings_manager.dfy ===
/**
 The page that ties form, table and store together (src/components/ListingsManager.tsx). Its state
 is the store (localStorage), the listings it shows, whether the form is visible and the listing
 being edited. Each handler is a function of that state and its inputs: the ids and timestamps the
 store would draw, and the answer to the delete confirmation.
 */
module ListingsManager {
  import opened Optional
  import opened ListingModel
  import opened ListingService
  import ListingForm

  datatype ManagerState = ManagerState(store: Storage, listings: seq<Listing>, formVisible: bool, current: Option<Listing>)

  /** The shown listings are the stored ones: what every `loadListings` re-establishes. */
  predicate Synced(st: ManagerState) {
    st.listings == GetListings(st.store)
  }

  /** Before the mount effect runs: nothing shown, no form. */
  function Unmounted(store: Storage): (st: ManagerState) {
    ManagerState(store, [], false, None)
  }

  /** `loadListings`: show what is stored. */
  function Load(st: ManagerState): (r: ManagerState)
    ensures Synced(r)
    ensures r.store == st.store && r.formVisible == st.formVisible && r.current == st.current
  {
    st.(listings := GetListings(st.store))
  }

  /** `handleAddListing`: add the draft, reload, hide the form. */
  function HandleAdd(st: ManagerState, d: Draft, id: string, dateAdded: string, dateUpdated: string): (r: ManagerState)
    ensures r.store == AddListing(st.store, d, id, dateAdded, dateUpdated).store
    ensures Synced(r) && !r.formVisible && r.current == st.current
  {
    Load(st.(store := AddListing(st.store, d, id, dateAdded, dateUpdated).store, formVisible := false))
  }

  /**
   `handleUpdateListing`: with a listing being edited, the draft overrides its fields (id and
   dates come from it), the store replaces it, the form closes and editing ends; otherwise nothing.
   */
  function HandleUpdate(st: ManagerState, d: Draft, now: string): (r: ManagerState)
    ensures st.current.None? ==> r == st
    ensures st.current.Some? ==>
      && r.store == UpdateListing(st.store, Overlay(st.current.value, d), now).store
      && Synced(r) && !r.formVisible && r.current.None?
  {
    match st.current
    case None => st
    case Some(c) =>
      Load(st.(store := UpdateListing(st.store, Overlay(c, d), now).store, formVisible := false, current := None))
  }

  /** What an update writes over the edited listing: the draft's values, the edited listing's id and dateAdded, the new time. */
  lemma UpdateWritesOverlay(st: ManagerState, d: Draft, now: string)
    requires st.current.Some?
    ensures var w := UpdateListing(st.store, Overlay(st.current.value, d), now).listing;
      Carries(w, d) && w.id == st.current.value.id && w.dateAdded == st.current.value.dateAdded && w.dateUpdated == now
    ensures var ls, ls' := GetListings(st.store), HandleUpdate(st, d, now).listings;
      |ls'| == |ls| &&
      forall i :: 0 <= i < |ls| ==> ls'[i] == (if ls[i].id == st.current.value.id
        then Overlay(st.current.value, d).(dateUpdated := now) else ls[i])
  {
  }

  /** `handleFormSubmit`: update while a listing is being edited, add otherwise. */
  function HandleFormSubmit(st: ManagerState, d: Draft, id: string, dateAdded: string, dateUpdated: string, now: string): (r: ManagerState)
    ensures st.current.Some? ==> r == HandleUpdate(st, d, now)
    ensures st.current.None? ==> r == HandleAdd(st, d, id, dateAdded, dateUpdated)
    ensures Synced(r) && !r.formVisible && r.current.None?
  {
    if st.current.Some? then HandleUpdate(st, d, now) else HandleAdd(st, d, id, dateAdded, dateUpdated)
  }

  /** `handleEditListing`: edit this listing in the form. */
  function HandleEdit(st: ManagerState, l: Listing): (r: ManagerState)
    ensures r.current == Some(l) && r.formVisible
    ensures r.store == st.store && r.listings == st.listings
  {
    st.(current := Some(l), formVisible := true)
  }

  /** `handleDeleteListing`: the store is touched only when the confirmation says yes. */
  function HandleDelete(st: ManagerState, id: string, confirmed: bool): (r: ManagerState)
    ensures !confirmed ==> r == st
    ensures confirmed ==> r.store == DeleteListing(st.store, id) && Synced(r)
    ensures r.formVisible == st.formVisible && r.current == st.current
  {
    if confirmed then Load(st.(store := DeleteListing(st.store, id))) else st
  }

  /** The listing with only `hasApplied` negated. */
  function ToggledApplied(l: Listing): (r: Listing)
    ensures r.hasApplied == !l.hasApplied
    ensures forall g :: g != HasApplied ==> FieldText(r, g) == FieldText(l, g)
    ensures r.allowsPets == l.allowsPets
  {
    l.(hasApplied := !l.hasApplied)
  }

  /** `handleToggleApplied`: store the listing with `hasApplied` negated, and reload. */
  function HandleToggleApplied(st: ManagerState, l: Listing, now: string): (r: ManagerState)
    ensures r.store == UpdateListing(st.store, ToggledApplied(l), now).store
    ensures Synced(r) && r.formVisible == st.formVisible && r.current == st.current
  {
    Load(st.(store := UpdateListing(st.store, ToggledApplied(l), now).store))
  }

  /** Toggling a stored listing twice leaves it as it was, up to its dateUpdated. */
  lemma ToggleAppliedTwice(l: Listing, now: string, later: string)
    ensures ToggledApplied(ToggledApplied(l).(dateUpdated := now)).(dateUpdated := later) == l.(dateUpdated := later)
  {
  }

  /** `handleCancelForm`, and the header click: hide the form and stop editing. */
  function HandleCancel(st: ManagerState): (r: ManagerState)
    ensures !r.formVisible && r.current.None?
    ensures r.store == st.store && r.listings == st.listings
  {
    st.(formVisible := false, current := None)
  }

  /** The "Add New Listing" button: show the form, editing whatever was being edited. */
  function ShowForm(st: ManagerState): (r: ManagerState)
    ensures r.formVisible && r.current == st.current
    ensures r.store == st.store && r.listings == st.listings
  {
    st.(formVisible := true)
  }

  /** The table's `onUpdateListing`: store the listing it hands over, and reload. */
  function HandleTableUpdate(st: ManagerState, l: Listing, now: string): (r: ManagerState)
    ensures r.store == UpdateListing(st.store, l, now).store
    ensures Synced(r) && r.formVisible == st.formVisible && r.current == st.current
  {
    Load(st.(store := UpdateListing(st.store, l, now).store))
  }

  /** Every handler keeps the shown listings in step with the store once they are. */
  lemma HandlersKeepSynced(st: ManagerState, d: Draft, l: Listing, id: string, t1: string, t2: string, now: string, confirmed: bool)
    requires Synced(st)
    ensures Synced(HandleFormSubmit(st, d, id, t1, t2, now))
    ensures Synced(HandleUpdate(st, d, now))
    ensures Synced(HandleEdit(st, l)) && Synced(HandleCancel(st)) && Synced(ShowForm(st))
    ensures Synced(HandleDelete(st, id, confirmed))
    ensures Synced(HandleToggleApplied(st, l, now)) && Synced(HandleTableUpdate(st, l, now))
  {
  }

  /** Every handler keeps the stored ids unique, provided an add draws an id not yet stored; a delete may name any id. */
  lemma HandlersKeepIdsUnique(st: ManagerState, d: Draft, l: Listing, id: string, t1: string, t2: string, now: string,
                              delId: string, confirmed: bool)
    requires UniqueIds(GetListings(st.store))
    requires !HasId(GetListings(st.store), id)
    ensures UniqueIds(GetListings(HandleFormSubmit(st, d, id, t1, t2, now).store))
    ensures UniqueIds(GetListings(HandleDelete(st, delId, confirmed).store))
    ensures UniqueIds(GetListings(HandleToggleApplied(st, l, now).store))
    ensures UniqueIds(GetListings(HandleTableUpdate(st, l, now).store))
  {
    if st.current.Some? {
      UpdateKeepsIds(st.store, Overlay(st.current.value, d), now);
    } else {
      AddKeepsIdsUnique(st.store, d, id, t1, t2);
    }
    DeleteKeepsIdsUnique(st.store, delId);
    UpdateKeepsIds(st.store, ToggledApplied(l), now);
    UpdateKeepsIds(st.store, l, now);
  }

  /**
   Editing a stored listing whose optional fields are all set and submitting the form untouched
   rewrites only its dateUpdated; every other stored listing stays as it was.
   */
  lemma EditSubmitUnchanged(st: ManagerState, l: Listing, fs: ListingForm.FormState, id: string, t1: string, t2: string, now: string)
    requires l.price.Some? && l.allowsPets.Some? && l.notes.Some?
    ensures var d := ListingForm.LoadInitial(fs, Some(l)).data;
      var ls, ls' := GetListings(st.store), HandleFormSubmit(HandleEdit(st, l), d, id, t1, t2, now).listings;
      |ls'| == |ls| && forall i :: 0 <= i < |ls| ==> ls'[i] == (if ls[i].id == l.id then l.(dateUpdated := now) else ls[i])
  {
    var d := ListingForm.LoadInitial(fs, Some(l)).data;
    ListingForm.LoadThenOverlay(fs, l);
    assert Overlay(l, d) == l;
    UpdateWritesOverlay(HandleEdit(st, l), d, now);
  }

  /** A delete the user declines keeps the store, and a confirmed one removes every listing with that id. */
  lemma DeleteRemovesId(st: ManagerState, id: string)
    ensures HandleDelete(st, id, false).store == st.store
    ensures !HasId(HandleDelete(st, id, true).listings, id)
    ensures forall x :: x in GetListings(st.store) && x.id != id ==> x in HandleDelete(st, id, true).listings
  {
  }
}

=== FILE: listings_table.dfy ===
/**
 Inline editing in the listings table (src/components/ListingsTable.tsx): the editing cell and the
 edit value are one explicit state; a handler returns the new state and, where the source calls
 `onUpdateListing`, the listing it hands over.
 */
module ListingsTable {
  import opened Optional
  import opened ListingModel

  /** `EditableCellType`: which listing and which field are being edited (no field: none). */
  datatype EditingCell = EditingCell(listingId: string, field: Option<Field>)

  datatype TableState = TableState(editing: EditingCell, editValue: string)

  /** `{ listingId: '', field: null }`: nothing is being edited. */
  const NotEditing := EditingCell("", None)
  const Initial := TableState(NotEditing, "")

  /** The fields that are never edited inline. */
  predicate IsProtected(f: Field) {
    f == Id || f == DateAdded || f == DateUpdated || f == HasApplied || f == AllowsPets || f == Url
  }

  /** Only fields open to inline editing are ever being edited. */
  predicate Valid(st: TableState) {
    st.editing.field.Some? ==> !IsProtected(st.editing.field.value)
  }

  /** The fields open to inline editing all hold text. */
  lemma EditableIsText(f: Field)
    requires !IsProtected(f)
    ensures IsTextField(f)
    ensures f == Address || f == ListingCreator || f == ContactInfo || f == Notes || f == Price
  {
  }

  /** `handleCellClick`: a protected field is ignored; any other starts editing with the field's text. */
  function CellClick(st: TableState, l: Listing, f: Field): (r: TableState)
    ensures IsProtected(f) ==> r == st
    ensures !IsProtected(f) ==> r.editing == EditingCell(l.id, Some(f)) && r.editValue == FieldText(l, f)
    ensures Valid(st) ==> Valid(r)
  {
    if IsProtected(f) then st
    else TableState(EditingCell(l.id, Some(f)), FieldText(l, f))
  }

  /** Typing in the edit input. */
  function ChangeEditValue(st: TableState, v: string): (r: TableState)
    ensures r.editing == st.editing && r.editValue == v
    ensures Valid(st) ==> Valid(r)
  {
    st.(editValue := v)
  }

  /** `renderEditableCell`'s test: is this cell the one being edited? */
  predicate IsEditing(st: TableState, l: Listing, f: Field) {
    st.editing.listingId == l.id && st.editing.field == Some(f)
  }

  /** A handler's outcome: the next state and the listing passed to `onUpdateListing`, if any. */
  datatype Step = Step(state: TableState, emitted: Option<Listing>)

  /**
   `handleSaveEdit` on the row's listing: nothing when no field is edited; otherwise the listing with
   the edited field set to the edit value is emitted and editing stops.
   */
  function SaveEdit(st: TableState, l: Listing): (r: Step)
    requires Valid(st)
    ensures st.editing.field.None? ==> r == Step(st, None)
    ensures st.editing.field.Some? ==> r.state.editing == NotEditing && r.state.editValue == st.editValue
    ensures st.editing.field.Some? ==> r.emitted.Some? && var f := st.editing.field.value;
      && FieldText(r.emitted.value, f) == st.editValue
      && (forall g :: g != f ==> FieldText(r.emitted.value, g) == FieldText(l, g))
      && r.emitted.value.hasApplied == l.hasApplied && r.emitted.value.allowsPets == l.allowsPets
      && (f != Price ==> r.emitted.value.price == l.price)
      && (f != Notes ==> r.emitted.value.notes == l.notes)
    ensures Valid(r.state)
  {
    match st.editing.field
    case None => Step(st, None)
    case Some(f) =>
      EditableIsText(f);
      Step(st.(editing := NotEditing), Some(WithText(l, f, st.editValue)))
  }

  /** A key pressed in the edit input. */
  datatype Key = Enter | Escape | OtherKey

  /** `handleKeyDown`: Enter saves, Escape stops editing without emitting, any other key does nothing. */
  function KeyDown(st: TableState, k: Key, l: Listing): (r: Step)
    requires Valid(st)
    ensures k == Enter ==> r == SaveEdit(st, l)
    ensures k == Escape ==> r.state.editing == NotEditing && r.state.editValue == st.editValue && r.emitted.None?
    ensures k == OtherKey ==> r == Step(st, None)
    ensures Valid(r.state)
  {
    match k
    case Enter => SaveEdit(st, l)
    case Escape => Step(st.(editing := NotEditing), None)
    case OtherKey => Step(st, None)
  }

  /** Saving right after clicking a cell, with nothing typed, emits the listing as it was (with undefined price or notes as ''). */
  lemma ClickThenSaveUnchanged(st: TableState, l: Listing, f: Field)
    requires !IsProtected(f)
    ensures var r := SaveEdit(CellClick(st, l, f), l);
      r.emitted.Some? && forall g :: FieldText(r.emitted.value, g) == FieldText(l, g)
    ensures f != Price && f != Notes ==> SaveEdit(CellClick(st, l, f), l).emitted == Some(l)
    ensures f == Price ==> SaveEdit(CellClick(st, l, f), l).emitted == Some(l.(price := Some(l.price.GetOr(""))))
    ensures f == Notes ==> SaveEdit(CellClick(st, l, f), l).emitted == Some(l.(notes := Some(l.notes.GetOr(""))))
  {
    EditableIsText(f);
  }

  /** Saving then saving again: the second save emits nothing. */
  lemma SaveThenSaveEmitsNothing(st: TableState, l: Listing, l': Listing)
    requires Valid(st)
    ensures SaveEdit(SaveEdit(st, l).state, l').emitted.None?
  {
  }

  /** The pets checkbox: the listing with `allowsPets` negated (an undefined value counts as false). */
  function TogglePets(l: Listing): (r: Listing)
    ensures r.allowsPets.Some? && r.allowsPets.value == !l.allowsPets.GetOr(false)
    ensures forall g :: g != AllowsPets ==> FieldText(r, g) == FieldText(l, g)
    ensures r.hasApplied == l.hasApplied
  {
    l.(allowsPets := Some(!l.allowsPets.GetOr(false)))
  }

  /**
   Toggling twice gives back the listing when pets was set; when it was undefined it comes back as
   an explicit false, which reads the same.
   */
  lemma TogglePetsTwice(l: Listing)
    ensures l.allowsPets.Some? ==> TogglePets(TogglePets(l)) == l
    ensures l.allowsPets.None? ==> TogglePets(TogglePets(l)) == l.(allowsPets := Some(false))
    ensures TogglePets(TogglePets(l)).allowsPets.GetOr(false) == l.allowsPets.GetOr(false)
  {
  }
}

=== FILE: optional.dfy ===
/** An optional value: stands for JavaScript's `undefined`/`null` or an absent property. */
module Optional {

  datatype Option<+T> = None | Some(value: T) {

    /** The value when present, otherwise the default. */
    function GetOr(default: T): T {
      match this
      case Some(v) => v
      case None => default
    }
  }
}

=== FILE: scrape_handler.dfy ===
/**
 The body of the `/scrape` request handler (server/index.js:37-180) as a pure function of its inputs:
 the submitted URL, the outcome of fetching the page (the raw text of each selector when it
 succeeds), the language model's reply, and JSON.parse as an abstract partial function.
 */
module ScrapeHandler {
  import opened Optional
  import opened Text
  import opened Json
  import JsonCandidate
  import BedBath

  const RequiredHost: string := "craigslist.org"
  const InvalidUrlMessage: string := "Invalid URL. Please provide a valid Craigslist URL."
  const NoContentMessage: string := "Could not extract content from this URL."
  const ParseFailedMessage: string := "Failed to parse listing information. Please try again."
  const ScrapeFailedMessage: string := "An error occurred while scraping the listing."

  /** The untrimmed `.text()` of each selector on the fetched page; one entry per `.attrgroup` element. */
  datatype Page = Page(
    title: string, body: string, mapAddress: string, postingInfo: string,
    attributeGroups: seq<string>, priceText: string)

  /** The HTTP GET: a transport failure or non-2xx status (thrown by the client), or the page. */
  datatype Fetch = FetchFailed | Fetched(page: Page)

  /** The language-model call: it throws (network, service error, no content block) or returns text. */
  datatype Reply = ModelFailed | ModelText(text: string)

  /** The scraped data: trimmed selector texts and the joined attribute groups. */
  datatype Fragments = Fragments(title: string, body: string, mapAddress: string, postingInfo: string, attributes: string)

  /** The seven-field `data` of a success response; values are JSON, as the handler copies parsed values through. */
  datatype ListingData = ListingData(
    address: Json, listingCreator: Json, contactInfo: Json, price: Json,
    bedrooms: Json, bathrooms: Json, allowsPets: Json)

  /** A response: an error status with `{error}`, or 200 with `{success: true, data}` and `fallback: true` when degraded. */
  datatype Response = Failure(status: nat, error: string) | Success(data: ListingData, fallback: bool)

  /** The URL is present, non-empty and contains the Craigslist host name. */
  predicate AcceptsUrl(url: Option<string>) {
    url.Some? && url.value != "" && Includes(url.value, RequiredHost)
  }

  /** The attribute groups in document order, each trimmed and followed by a newline, joined into one text. */
  function Attributes(groups: seq<string>): (r: string)
    ensures r == "" <==> |groups| == 0
    ensures |groups| > 0 ==> r[|r| - 1] == '\n'
    ensures |r| >= |groups|
  {
    if |groups| == 0 then ""
    else Attributes(groups[..|groups| - 1]) + Trim(groups[|groups| - 1]) + "\n"
  }

  /** Appending a group appends its trimmed text and a newline. */
  lemma AttributesSnoc(groups: seq<string>, g: string)
    ensures Attributes(groups + [g]) == Attributes(groups) + (Trim(g) + "\n")
  {
    assert (groups + [g])[..|groups|] == groups;
  }

  /** Joining distributes over concatenation: the joined text is the groups' pieces side by side. */
  lemma {:induction false} AttributesAppend(a: seq<string>, b: seq<string>)
    ensures Attributes(a + b) == Attributes(a) + Attributes(b)
    decreases |b|
  {
    if |b| == 0 {
      assert a + b == a;
    } else {
      var b', g := b[..|b| - 1], b[|b| - 1];
      assert b == b' + [g];
      assert a + b == (a + b') + [g];
      AttributesSnoc(a + b', g);
      AttributesSnoc(b', g);
      AttributesAppend(a, b');
      ConcatAssoc(Attributes(a), Attributes(b'), Trim(g) + "\n");
    }
  }

  /** Concatenation is associative. */
  lemma ConcatAssoc(x: string, y: string, z: string)
    ensures (x + y) + z == x + (y + z)
  {
  }

  /** One group contributes its trimmed text and a newline. */
  lemma AttributesOfOne(g: string)
    ensures Attributes([g]) == Trim(g) + "\n"
  {
    assert [g][..0] == [];
  }

  /** The selector texts, trimmed, and the joined attribute groups. */
  function Locate(page: Page): (f: Fragments)
    ensures f.attributes == "" <==> |page.attributeGroups| == 0
    ensures f.body == "" <==> AllIn(page.body, 0, |page.body|, Space)
    ensures f.title == Trim(page.title) && f.mapAddress == Trim(page.mapAddress) && f.postingInfo == Trim(page.postingInfo)
  {
    Fragments(Trim(page.title), Trim(page.body), Trim(page.mapAddress), Trim(page.postingInfo),
      Attributes(page.attributeGroups))
  }

  /** The page has content unless both the trimmed body and the joined attributes are empty. */
  predicate HasContent(f: Fragments) {
    f.body != "" || f.attributes != ""
  }

  /** A text field of the coerced record: a truthy parsed value, or `''`. */
  predicate IsTextValue(v: Json) {
    Truthy(Some(v)) || v == JString("")
  }

  /** The coerced record's invariant: every text field truthy or `''`, `allowsPets` truthy or `false`. */
  predicate IsCoerced(d: ListingData) {
    && IsTextValue(d.address) && IsTextValue(d.listingCreator) && IsTextValue(d.contactInfo)
    && IsTextValue(d.price) && IsTextValue(d.bedrooms) && IsTextValue(d.bathrooms)
    && (Truthy(Some(d.allowsPets)) || d.allowsPets == JBool(false))
  }

  /** A field of the record: the member read, when truthy, else the default. */
  predicate ReadOr(read: Option<Json>, field: Json, default: Json) {
    if Truthy(read) then read == Some(field) else field == default
  }

  /** The record read from a value that has none of the seven members. */
  const Defaults: ListingData :=
    ListingData(JString(""), JString(""), JString(""), JString(""), JString(""), JString(""), JBool(false))

  /** The seven members of a parsed value other than null, each read with its default: `''` for the text fields, false for `allowsPets`. */
  function Coerce(v: Json): (d: ListingData)
    requires v != JNull
    ensures IsCoerced(d)
    ensures ReadOr(Prop(v, "address"), d.address, JString(""))
    ensures ReadOr(Prop(v, "listingCreator"), d.listingCreator, JString(""))
    ensures ReadOr(Prop(v, "contactInfo"), d.contactInfo, JString(""))
    ensures ReadOr(Prop(v, "price"), d.price, JString(""))
    ensures ReadOr(Prop(v, "bedrooms"), d.bedrooms, JString(""))
    ensures ReadOr(Prop(v, "bathrooms"), d.bathrooms, JString(""))
    ensures ReadOr(Prop(v, "allowsPets"), d.allowsPets, JBool(false))
    ensures !v.JObject? ==> d == Defaults
  {
    ListingData(
      OrElse(Prop(v, "address"), JString("")),
      OrElse(Prop(v, "listingCreator"), JString("")),
      OrElse(Prop(v, "contactInfo"), JString("")),
      OrElse(Prop(v, "price"), JString("")),
      OrElse(Prop(v, "bedrooms"), JString("")),
      OrElse(Prop(v, "bathrooms"), JString("")),
      OrElse(Prop(v, "allowsPets"), JBool(false)))
  }

  /** The seven keys of the record; every other member of the parsed object is dropped. */
  const Keys: set<string> := {"address", "listingCreator", "contactInfo", "price", "bedrooms", "bathrooms", "allowsPets"}

  /** Two objects that agree on the seven keys coerce to the same record: extra members are ignored. */
  lemma CoerceIgnoresOtherKeys(m1: map<string, Json>, m2: map<string, Json>)
    requires forall k :: k in Keys ==> (k in m1 <==> k in m2)
    requires forall k :: k in Keys && k in m1 ==> m1[k] == m2[k]
    ensures Coerce(JObject(m1)) == Coerce(JObject(m2))
  {
    assert "address" in Keys && "listingCreator" in Keys && "contactInfo" in Keys && "price" in Keys;
    assert "bedrooms" in Keys && "bathrooms" in Keys && "allowsPets" in Keys;
  }

  /** The record as a JSON object with exactly the seven keys. */
  function Members(d: ListingData): (m: map<string, Json>)
    ensures m.Keys == Keys
  {
    map["address" := d.address, "listingCreator" := d.listingCreator, "contactInfo" := d.contactInfo,
        "price" := d.price, "bedrooms" := d.bedrooms, "bathrooms" := d.bathrooms, "allowsPets" := d.allowsPets]
  }

  /**
   Round trip: an object carrying an already coerced record, plus any other members, coerces back to
   exactly that record.
   */
  lemma CoerceRecoversRecord(d: ListingData, extra: map<string, Json>)
    requires IsCoerced(d)
    ensures Coerce(JObject(extra + Members(d))) == d
  {
    var m := extra + Members(d);
    assert m["address"] == d.address && m["listingCreator"] == d.listingCreator;
    assert m["contactInfo"] == d.contactInfo && m["price"] == d.price;
    assert m["bedrooms"] == d.bedrooms && m["bathrooms"] == d.bathrooms && m["allowsPets"] == d.allowsPets;
  }

  /** Coercion is idempotent: sending the record through JSON.parse and coercion again changes nothing. */
  lemma CoerceIdempotent(v: Json)
    requires v != JNull
    ensures Coerce(JObject(Members(Coerce(v)))) == Coerce(v)
  {
    CoerceRecoversRecord(Coerce(v), map[]);
    assert map[] + Members(Coerce(v)) == Members(Coerce(v));
  }

  /** What the model-call block yields: an unparsable reply, a coerced record, or an exception. */
  datatype Extraction = Unparsable | Extracted(data: ListingData) | Threw

  /**
   The model-call block (server/index.js:79-149): the call, JSON.parse of the chosen text, coercion.
   A reply that parses to `null` throws when `.address` is read, inside the block, like a failed call.
   */
  function Extract(reply: Reply, parse: string -> Option<Json>): (x: Extraction)
    ensures x.Unparsable? <==> reply.ModelText? && parse(JsonCandidate.JsonText(reply.text)).None?
    ensures x.Threw? <==> reply.ModelFailed? || parse(JsonCandidate.JsonText(reply.text)) == Some(JNull)
    ensures x.Extracted? ==> IsCoerced(x.data)
    ensures x.Extracted? <==> (reply.ModelText? && parse(JsonCandidate.JsonText(reply.text)).Some?
                               && parse(JsonCandidate.JsonText(reply.text)) != Some(JNull))
    ensures x.Extracted? ==> x.data == Coerce(parse(JsonCandidate.JsonText(reply.text)).value)
  {
    match reply
    case ModelFailed => Threw
    case ModelText(t) =>
      match parse(JsonCandidate.JsonText(t))
      case None => Unparsable
      case Some(v) => if v == JNull then Threw else Extracted(Coerce(v))
  }

  /**
   The fallback record (server/index.js:155-170): the map address, the trimmed `.price` text, and the
   two capture groups of the first bed/bath match in the attributes, if any.
   */
  function Fallback(f: Fragments, priceText: string): (d: ListingData)
    ensures d.address == JString(f.mapAddress) && d.price == JString(Trim(priceText))
    ensures d.listingCreator == JString("") && d.contactInfo == JString("") && d.allowsPets == JBool(false)
    ensures d.bedrooms == JString("") <==> !BedBath.HasMatch(f.attributes)
    ensures d.bathrooms == JString("") <==> !BedBath.HasMatch(f.attributes)
    ensures IsCoerced(d)
  {
    var bedBath := BedBath.FirstMatch(f.attributes);
    var bedrooms := if bedBath.Some? then BedBath.Bedrooms(f.attributes, bedBath.value) else "";
    var bathrooms := if bedBath.Some? then BedBath.Bathrooms(f.attributes, bedBath.value) else "";
    ListingData(JString(f.mapAddress), JString(""), JString(""), JString(Trim(priceText)),
      JString(bedrooms), JString(bathrooms), JBool(false))
  }

  /** With a bed/bath match in the attributes, the fallback takes the capture groups of the leftmost one. */
  lemma FallbackTakesFirstMatch(f: Fragments, priceText: string, h: BedBath.Hit)
    requires BedBath.IsFirstMatch(f.attributes, h)
    ensures Fallback(f, priceText).bedrooms == JString(BedBath.Bedrooms(f.attributes, h))
    ensures Fallback(f, priceText).bathrooms == JString(BedBath.Bathrooms(f.attributes, h))
  {
    BedBath.FirstMatchIsUnique(f.attributes, h);
  }

  /** The handler once the page is fetched: the content check, then the model call and its outcome. */
  function Respond(f: Fragments, priceText: string, reply: Reply, parse: string -> Option<Json>): (r: Response)
    ensures r.Failure? ==> r.status == 400 || r.status == 500
    ensures r.Success? ==> IsCoerced(r.data) && HasContent(f)
    ensures r.Success? && r.fallback <==> HasContent(f) && Extract(reply, parse).Threw?
    ensures r.Success? && r.fallback ==> r.data == Fallback(f, priceText)
    ensures r.Success? && !r.fallback ==> Extract(reply, parse).Extracted? && r.data == Extract(reply, parse).data
  {
    if !HasContent(f) then Failure(400, NoContentMessage)
    else
      match Extract(reply, parse)
      case Unparsable => Failure(500, ParseFailedMessage)
      case Extracted(d) => Success(d, false)
      case Threw => Success(Fallback(f, priceText), true)
  }

  /** The whole handler: URL check, fetch, content check, model call and parse, coercion or fallback. */
  function Scrape(url: Option<string>, fetch: Fetch, reply: Reply, parse: string -> Option<Json>): (r: Response)
    ensures r.Failure? ==> r.status == 400 || r.status == 500
    ensures r.Success? ==> IsCoerced(r.data)
    ensures r.Success? ==> AcceptsUrl(url) && fetch.Fetched? && HasContent(Locate(fetch.page))
    ensures AcceptsUrl(url) && fetch.FetchFailed? ==> r == Failure(500, ScrapeFailedMessage)
    ensures r.Success? && r.fallback ==> Extract(reply, parse).Threw? && r.data == Fallback(Locate(fetch.page), fetch.page.priceText)
    ensures r.Success? && !r.fallback ==> Extract(reply, parse).Extracted? && r.data == Extract(reply, parse).data
  {
    if !AcceptsUrl(url) then Failure(400, InvalidUrlMessage)
    else
      match fetch
      case FetchFailed => Failure(500, ScrapeFailedMessage)
      case Fetched(page) => Respond(Locate(page), page.priceText, reply, parse)
  }

  /** A missing or empty URL, or one without the host name, is refused whatever the fetch or the model would do. */
  lemma UrlCheckedBeforeFetch(url: Option<string>, fetch1: Fetch, fetch2: Fetch, reply1: Reply, reply2: Reply,
                              parse1: string -> Option<Json>, parse2: string -> Option<Json>)
    requires url.None? || url.value == "" || !Includes(url.value, RequiredHost)
    ensures Scrape(url, fetch1, reply1, parse1) == Scrape(url, fetch2, reply2, parse2) == Failure(400, InvalidUrlMessage)
  {
  }

  /**
   An accepted URL whose page has an empty trimmed body and no attribute group at all gets the
   no-content error, whatever the model would have replied; one attribute group, even blank, is content.
   */
  lemma NoContentIff(url: Option<string>, page: Page, reply: Reply, parse: string -> Option<Json>)
    requires AcceptsUrl(url)
    ensures Scrape(url, Fetched(page), reply, parse) == Failure(400, NoContentMessage)
      <==> AllIn(page.body, 0, |page.body|, Space) && |page.attributeGroups| == 0
    ensures AllIn(page.body, 0, |page.body|, Space) && |page.attributeGroups| == 0 ==>
      forall reply': Reply, parse': string -> Option<Json> ::
        Scrape(url, Fetched(page), reply', parse') == Scrape(url, Fetched(page), reply, parse)
  {
    assert NoContentMessage != ParseFailedMessage;
  }

  /** A reply JSON.parse rejects is a 500 error: the handler does not fall back to the heuristics. */
  lemma ParseFailureIsServerError(url: Option<string>, page: Page, text: string, parse: string -> Option<Json>)
    requires AcceptsUrl(url) && HasContent(Locate(page))
    requires parse(JsonCandidate.JsonText(text)).None?
    ensures Scrape(url, Fetched(page), ModelText(text), parse) == Failure(500, ParseFailedMessage)
  {
  }

  /** A reply that parses to a value other than `null` yields that value coerced, not flagged as fallback. */
  lemma ParsedReplyIsCoerced(url: Option<string>, page: Page, text: string, parse: string -> Option<Json>, v: Json)
    requires AcceptsUrl(url) && HasContent(Locate(page))
    requires parse(JsonCandidate.JsonText(text)) == Some(v) && v != JNull
    ensures Scrape(url, Fetched(page), ModelText(text), parse) == Success(Coerce(v), false)
  {
  }

  /** A reply that parses to `null` throws on the first member read, so the page's fallback record is sent. */
  lemma NullReplyFallsBack(url: Option<string>, page: Page, text: string, parse: string -> Option<Json>)
    requires AcceptsUrl(url) && HasContent(Locate(page))
    requires parse(JsonCandidate.JsonText(text)) == Some(JNull)
    ensures Scrape(url, Fetched(page), ModelText(text), parse) == Success(Fallback(Locate(page), page.priceText), true)
    ensures Scrape(url, Fetched(page), ModelText(text), parse).data.address == JString(Trim(page.mapAddress))
    ensures Scrape(url, Fetched(page), ModelText(text), parse).data.price == JString(Trim(page.priceText))
  {
  }

  /** A failed model call yields a success flagged as fallback, built from the page alone. */
  lemma ModelFailureFallsBack(url: Option<string>, page: Page, parse: string -> Option<Json>)
    requires AcceptsUrl(url) && HasContent(Locate(page))
    ensures Scrape(url, Fetched(page), ModelFailed, parse) == Success(Fallback(Locate(page), page.priceText), true)
    ensures Scrape(url, Fetched(page), ModelFailed, parse).data.address == JString(Trim(page.mapAddress))
    ensures Scrape(url, Fetched(page), ModelFailed, parse).data.price == JString(Trim(page.priceText))
  {
  }

  /** A failed fetch of an accepted URL is caught by the outer handler: a 500 whatever the model would do. */
  lemma FetchFailureIsServerError(url: Option<string>, reply: Reply, parse: string -> Option<Json>)
    requires AcceptsUrl(url)
    ensures Scrape(url, FetchFailed, reply, parse) == Failure(500, ScrapeFailedMessage)
  {
  }

  /** A map address padded with whitespace reaches the fallback record trimmed. */
  lemma PaddedAddressIsTrimmed(url: Option<string>, page: Page, parse: string -> Option<Json>)
    requires AcceptsUrl(url) && HasContent(Locate(page))
    requires page.mapAddress == " 12 Main St\n"
    ensures Scrape(url, Fetched(page), ModelFailed, parse).data.address == JString("12 Main St")
  {
    TrimOfPaddedAddress();
    ModelFailureFallsBack(url, page, parse);
  }

  /** Trimming " 12 Main St" and a newline leaves "12 Main St". */
  lemma TrimOfPaddedAddress()
    ensures Trim(" 12 Main St\n") == "12 Main St"
  {
    var a := " 12 Main St\n";
    assert a[1..11] == "12 Main St";
    assert AllIn(a, 0, 1, Space) && AllIn(a, 11, |a|, Space);
    TrimOfPadded(a, 1, 11);
  }

  /**
   The end-to-end scenario of a page whose attributes read "2 BR / 1 Ba": a failed model call gives
   the fallback record with bedrooms "2" and bathrooms "1".
   */
  lemma TwoBedOneBathScenario(url: Option<string>, page: Page, parse: string -> Option<Json>)
    requires AcceptsUrl(url)
    requires page.attributeGroups == ["2 BR / 1 Ba"]
    ensures var r := Scrape(url, Fetched(page), ModelFailed, parse);
      && r.Success? && r.fallback
      && r.data.bedrooms == JString("2") && r.data.bathrooms == JString("1")
      && r.data.allowsPets == JBool(false)
  {
    var f := Locate(page);
    JoinOneTrimmedGroup("2 BR / 1 Ba");
    assert f.attributes == "2 BR / 1 Ba\n";
    ModelFailureFallsBack(url, page, parse);
    FallbackOfTwoBedOneBath(f, page.priceText);
  }

  /** The fallback for the attributes "2 BR / 1 Ba\n": bedrooms "2", bathrooms "1". */
  lemma FallbackOfTwoBedOneBath(f: Fragments, priceText: string)
    requires f.attributes == "2 BR / 1 Ba\n"
    ensures Fallback(f, priceText).bedrooms == JString("2") && Fallback(f, priceText).bathrooms == JString("1")
  {
    BedBath.ExampleTwoBedsOneBath(f.attributes);
    FallbackTakesFirstMatch(f, priceText, BedBath.FirstMatch(f.attributes).value);
  }

  /** A single group with no surrounding whitespace joins to itself and a newline. */
  lemma JoinOneTrimmedGroup(g: string)
    requires g != [] && !IsSpace(g[0]) && !IsSpace(g[|g| - 1])
    ensures Attributes([g]) == g + "\n"
  {
    TrimOfPadded(g, 0, |g|);
    AttributesOfOne(g);
  }
}

=== FILE: text.dfy ===
/**
 The string primitives the handlers rely on: the JavaScript `\s` and `\d` character classes,
 greedy runs of one class, `String.prototype.trim` and `String.prototype.includes`.
 */
module Text {
  import opened Optional

  /** A character matched by `\s` in a JavaScript regular expression; `trim` strips the same set. */
  predicate IsSpace(c: char) {
    || c == ' ' || c == '\t' || c == '\n' || c == '\r' || c == '\U{000B}' || c == '\U{000C}'
    || c == '\U{00A0}' || c == '\U{1680}' || ('\U{2000}' <= c <= '\U{200A}')
    || c == '\U{2028}' || c == '\U{2029}' || c == '\U{202F}' || c == '\U{205F}'
    || c == '\U{3000}' || c == '\U{FEFF}'
  }

  /** A character matched by `\d` (a regex without the `u` flag: ASCII digits only). */
  predicate IsDigit(c: char) {
    '0' <= c <= '9'
  }

  datatype CharClass = Space | Digit

  predicate InClass(c: char, k: CharClass) {
    match k
    case Space => IsSpace(c)
    case Digit => IsDigit(c)
  }

  /** Every character of s[lo..hi] belongs to class k. */
  predicate AllIn(s: string, lo: int, hi: int, k: CharClass)
    requires 0 <= lo <= hi <= |s|
  {
    forall i :: lo <= i < hi ==> InClass(s[i], k)
  }

  /** End of the longest run of class-k characters starting at i: what a greedy `\s*` or `\d+` consumes. */
  function Span(s: string, i: nat, k: CharClass): (j: nat)
    requires i <= |s|
    ensures i <= j <= |s|
    ensures AllIn(s, i, j, k)
    ensures j == |s| || !InClass(s[j], k)
    decreases |s| - i
  {
    if i < |s| && InClass(s[i], k) then Span(s, i + 1, k) else i
  }

  /** A run of class k from i that ends at j, followed by a character outside k, is the run Span finds. */
  lemma SpanIsUnique(s: string, i: nat, j: nat, k: CharClass)
    requires i <= j <= |s|
    requires AllIn(s, i, j, k)
    requires j == |s| || !InClass(s[j], k)
    ensures Span(s, i, k) == j
  {
  }

  /** Start of the trailing run of spaces inside s[lo..hi]: every character of s[j..hi] is a space. */
  function SpanBack(s: string, lo: nat, hi: nat): (j: nat)
    requires lo <= hi <= |s|
    ensures lo <= j <= hi
    ensures AllIn(s, j, hi, Space)
    ensures j == lo || !IsSpace(s[j - 1])
    decreases hi - lo
  {
    if lo < hi && IsSpace(s[hi - 1]) then SpanBack(s, lo, hi - 1) else hi
  }

  lemma SpanBackIsUnique(s: string, lo: nat, j: nat, hi: nat)
    requires lo <= j <= hi <= |s|
    requires AllIn(s, j, hi, Space)
    requires j == lo || !IsSpace(s[j - 1])
    ensures SpanBack(s, lo, hi) == j
  {
  }

  /** `String.prototype.trim`: drops the leading and the trailing whitespace. */
  function Trim(s: string): (r: string)
    ensures |r| <= |s|
    ensures r == [] <==> AllIn(s, 0, |s|, Space)
    ensures r != [] ==> !IsSpace(r[0]) && !IsSpace(r[|r| - 1])
  {
    var i := Span(s, 0, Space);
    var j := SpanBack(s, i, |s|);
    s[i..j]
  }

  /**
   Trim is characterised by the shape of its input: if s is spaces, then t, then spaces, where t
   is empty or neither starts nor ends with a space, then trimming s yields exactly t.
   */
  lemma TrimOfPadded(s: string, a: nat, b: nat)
    requires a <= b <= |s|
    requires AllIn(s, 0, a, Space) && AllIn(s, b, |s|, Space)
    requires a == b || (!IsSpace(s[a]) && !IsSpace(s[b - 1]))
    ensures Trim(s) == s[a..b]
  {
    if a == b {
      assert AllIn(s, 0, |s|, Space) by {
        forall i | 0 <= i < |s| ensures IsSpace(s[i]) {
          if i >= b {
            assert AllIn(s, b, |s|, Space);
          }
        }
      }
    } else {
      SpanIsUnique(s, 0, a, Space);
      SpanBackIsUnique(s, a, b, |s|);
    }
  }

  /** Trimming twice trims once: the text handed to JSON.parse has no surrounding whitespace. */
  lemma TrimIdempotent(s: string)
    ensures Trim(Trim(s)) == Trim(s)
  {
    var t := Trim(s);
    TrimOfPadded(t, 0, |t|);
  }

  /** t occurs in s at position i. */
  predicate OccursAt(s: string, t: string, i: nat) {
    i + |t| <= |s| && s[i..i + |t|] == t
  }

  /** The first position at or after `from` where t occurs (`indexOf` with a start position). */
  function IndexOfFrom(s: string, t: string, from: nat): (r: Option<nat>)
    requires from <= |s|
    ensures r.Some? ==> from <= r.value <= |s| && OccursAt(s, t, r.value)
    ensures r.Some? ==> forall k :: from <= k < r.value ==> !OccursAt(s, t, k)
    ensures r.None? ==> forall k :: from <= k <= |s| ==> !OccursAt(s, t, k)
    decreases |s| - from
  {
    if OccursAt(s, t, from) then Some(from)
    else if from == |s| then None
    else IndexOfFrom(s, t, from + 1)
  }

  /** `String.prototype.includes`. */
  predicate Includes(s: string, t: string)
    ensures Includes(s, t) <==> exists k :: 0 <= k <= |s| && OccursAt(s, t, k)
  {
    IndexOfFrom(s, t, 0).Some?
  }

  /** The last position before hi holding character c (`lastIndexOf` on s[..hi]). */
  function LastIndexOf(s: string, c: char, hi: nat): (r: Option<nat>)
    requires hi <= |s|
    ensures r.Some? ==> r.value < hi && s[r.value] == c
    ensures r.Some? ==> forall k :: r.value < k < hi ==> s[k] != c
    ensures r.None? ==> forall k :: 0 <= k < hi ==> s[k] != c
  {
    if hi == 0 then None
    else if s[hi - 1] == c then Some(hi - 1)
    else LastIndexOf(s, c, hi - 1)
  }
}
